=== FILE: README.md ===
# Sign-in, search history and upload rules of a YouTube client, in Dafny

This project models the sequential core of a Next.js YouTube client. It states and proves
properties of that model. The core has five parts:

- **Search history.** A reducer keeps a most-recently-used list of at most ten queries. Adding
  trims the query, ignores blank ones, drops the earlier copy and puts the query first.
  Removing filters out exact copies. Loading replaces the list. Clearing empties it.
- **Session cookie.** Server actions keep the signed-in session in one cookie,
  `youtube_auth_session`. The session holds the token, an absolute expiry in milliseconds and
  the user. A read evicts a session once `now >= tokenExpiresAt`. A cookie that does not decode
  is deleted. Updating the user recomputes `maxAge` from the time left, never below zero.
- **OAuth 2.0 implicit grant** (section 4.2 of RFC 6749). This part covers:
  - the fragment parser and the read-once `state` check against `sessionStorage`;
  - the hex state token made from 32 random bytes;
  - the authorization URL, built twice: by the library and by the `useGoogleLogin` hook;
  - the `localStorage` access-token store;
  - the client auth reducer (LOGIN, LOGOUT, UPDATE_USER) with the server action each step
    fires, and the callback handler.
- **Route guard.** Signed-in users are sent from `/login` and `/create-account` pages to `/`.
  Signed-out users are sent from `/app` pages to `/app/login`. Paths are matched by substring.
  The guard's notion of "signed in" is a non-empty `auth-token` cookie. That is not the
  session cookie the sign-in flow writes: `RouteProxy.SessionCookieIgnored` proves the session
  cookie changes no decision. This is modelled as the code has it.
- **Upload validation.** The form schema checks each field on its own:
  - title: at most 100 characters;
  - description: at most 5000 characters;
  - category: required;
  - privacy: one of three values;
  - file: at most 100 MiB, of a video type.

  The upload server action checks the file first, then the four text fields. It then passes
  the parameters unchanged to an abstract upload.

Stores are values passed in and returned: the cookie jar, `sessionStorage` and `localStorage`.
The clock (`now`), the random bytes and the JSON codec are parameters. So are the People API
and YouTube upload calls, given as their results. No `window` is the `None` case of an optional
store or hash.

The JavaScript built-ins the code relies on are modelled in `Text` and `UrlParams`:
- `trim`, `includes` and `startsWith`;
- `parseInt`, as a three-way `Absent | Num | NaN`;
- `Number.prototype.toString(radix)` and `padStart`;
- `join` and `split`;
- string length in UTF-16 units;
- `URLSearchParams`, as an ordered list of pairs.

Files:

| file | module | models |
|---|---|---|
| wrappers.dfy | Wrappers | `Option`, `Result`, thrown values |
| text.dfy | Text | string and number built-ins |
| url_params.dfy | UrlParams | query strings |
| web_storage.dfy | WebStorage | `getItem` and truthiness |
| search_history.dfy | SearchHistory | src/contexts/SearchHistoryContext.tsx |
| auth_types.dfy | AuthTypes | `UserInfo`, `AuthState` |
| auth_actions.dfy | AuthActions | src/actions/auth.ts |
| oauth_response.dfy | OAuthResponse | src/utils/oauth.ts and its copy in src/lib/oauth.ts:90-117 |
| oauth_lib.dfy | OAuthLib | src/lib/oauth.ts |
| google_login.dfy | GoogleLogin | src/hooks/useGoogleLogin.ts |
| auth_context.dfy | AuthContext | src/contexts/AuthContext.tsx |
| route_proxy.dfy | RouteProxy | src/proxy.ts |
| video_upload_schema.dfy | VideoUploadSchema | src/lib/form/schemas/videoUploadSchema.ts |
| video_actions.dfy | VideoActions | src/actions/video.ts |

## Model

| member | source | states |
|---|---|---|
| Text.Trim | src/contexts/SearchHistoryContext.tsx:37 | the result is a piece of the input with only whitespace around it, and neither starts nor ends with whitespace |
| Text.TrimIdempotent | src/contexts/SearchHistoryContext.tsx:37 | trimming a trimmed string changes nothing |
| Text.ContainsIffOccurs | src/proxy.ts:14-21 | `includes` holds exactly when the text occurs at some position |
| Text.SplitJoin | src/utils/oauth.ts:22 | splitting on a separator that no part contains gives back the parts |
| Text.ToRadixString | src/lib/oauth.ts:31 | `toString(radix)` writes only digits of the radix, with no leading zero for a positive number |
| Text.RadixRoundTrip | src/lib/oauth.ts:31 | reading back the digits `toString(radix)` wrote gives the number |
| Text.LeadingDigits | src/utils/oauth.ts:27 | the longest digit prefix: all digits, and the next character is not one |
| Text.ParseInt | src/utils/oauth.ts:27 | `parseInt` never yields "absent": it yields a number or NaN |
| Text.ParseIntNaNIff | src/utils/oauth.ts:27 | `parseInt` gives NaN exactly when no digit follows the leading whitespace, the optional sign and the optional `0x`, and a number otherwise |
| Text.ParseIntSkipsWhitespace | src/utils/oauth.ts:27 | whitespace in front of the text never changes what `parseInt` reads |
| Text.ParseIntOfDigitsThenRest | src/utils/oauth.ts:27 | decimal digits followed by a non-digit read as the digits' value, whatever trails them, unless the digits are a lone `0` followed by `x` or `X` |
| Text.ParseIntOfSignedDigitsThenRest | src/utils/oauth.ts:27 | the same digits, on the same condition (not a lone `0` followed by `x` or `X`), after `+` read as their value and after `-` as its negation |
| Text.ParseIntOfHex | src/utils/oauth.ts:27 | `0x` or `0X` then hexadecimal digits read in radix 16, whatever trails them |
| Text.ParseIntOfDecimal | src/lib/oauth.ts:143 | a plain run of decimal digits parses to its value |
| Text.ParseIntOfNegativeDecimal | src/lib/oauth.ts:143 | a minus sign followed by decimal digits parses to the negated value |
| Text.ParseIntOfIntToString | src/lib/oauth.ts:128-143 | `parseInt` of an integer's decimal text gives the integer back; the text is always plain digits, as `String(n)` writes it below 10^21 |
| Text.Utf16Length | src/lib/form/schemas/videoUploadSchema.ts:13-17 | a string's length in UTF-16 units is between its character count and twice that |
| UrlParams.Get | src/utils/oauth.ts:25-31 | `get` is absent exactly when no pair has the name, and otherwise returns the value of the first pair that has it |
| UrlParams.GetFirstOccurrence | src/utils/oauth.ts:25-31 | a pair that no earlier pair shares its name with is the one `get` returns |
| UrlParams.Parse | src/utils/oauth.ts:22 | parsed names never contain `=`, and no parsed name or value contains `&` |
| UrlParams.Serialize | src/lib/oauth.ts:45-54 | no pairs give the empty string; otherwise the text starts with the first pair as `name=value` |
| UrlParams.ParseSerialize | src/lib/oauth.ts:45-54 | parsing the serialised pairs gives back the same pairs in the same order, when no name contains `&`, `=` or `?` and no value contains `&` |
| WebStorage.GetItem | src/utils/oauth.ts:41 | `getItem` is present exactly for stored keys, with the stored value |
| SearchHistory.Without | src/contexts/SearchHistoryContext.tsx:41 | the filter keeps exactly the entries different from the removed one, and changes nothing when that is absent |
| SearchHistory.WithoutCounts | src/contexts/SearchHistoryContext.tsx:48 | the filter keeps every other entry as many times as before and no copy of the removed one |
| SearchHistory.AddBlankIsNoOp | src/contexts/SearchHistoryContext.tsx:37-38 | adding a query that trims to empty leaves the history unchanged |
| SearchHistory.AddPutsQueryFirst | src/contexts/SearchHistoryContext.tsx:37-44 | after adding, the trimmed query is first, occurs once, and is followed by the old entries minus it in their old order, cut to at most ten |
| SearchHistory.AddIdempotent | src/contexts/SearchHistoryContext.tsx:36-44 | adding the same query twice in a row equals adding it once |
| SearchHistory.MoveToFrontIdempotent | src/contexts/SearchHistoryContext.tsx:41-42 | moving the same query to the front twice gives the same list as moving it once |
| SearchHistory.MoveToFrontShape | src/contexts/SearchHistoryContext.tsx:41-42 | the new list is the query then a prefix of the filtered old list, of length min(1 + remaining, 10) |
| SearchHistory.MoveToFrontValid | src/contexts/SearchHistoryContext.tsx:41-42 | moving a query to the front keeps a duplicate-free list duplicate-free |
| SearchHistory.Reduce | src/contexts/SearchHistoryContext.tsx:31-63 | ADD of a blank query keeps the state; any other ADD gives one to ten entries with the trimmed query first; REMOVE keeps exactly the entries unequal to the payload; LOAD gives the items; CLEAR gives the empty list |
| SearchHistory.RemoveDeletesEveryCopy | src/contexts/SearchHistoryContext.tsx:47-49 | removing deletes every copy of the untrimmed payload, keeps all else with its count, and is a no-op for an absent entry |
| SearchHistory.WithoutDistributes | src/contexts/SearchHistoryContext.tsx:48 | filtering a concatenation is concatenating the filtered parts |
| SearchHistory.RemoveKeepsOrder | src/contexts/SearchHistoryContext.tsx:47-49 | removal keeps the surviving entries in their relative order |
| SearchHistory.ClearAndLoad | src/contexts/SearchHistoryContext.tsx:52-58 | clearing gives the empty list; loading gives the list as passed |
| SearchHistory.LoadIsUnchecked | src/contexts/SearchHistoryContext.tsx:52-54 | loading neither deduplicates nor truncates: eleven copies of one query load as they are |
| SearchHistory.AddPreservesValid | src/contexts/SearchHistoryContext.tsx:7-44 | adding keeps the history at most ten long and duplicate-free |
| SearchHistory.RemovePreservesValid | src/contexts/SearchHistoryContext.tsx:47-49 | removing keeps the history at most ten long and duplicate-free |
| SearchHistory.ReducePreservesValid | src/contexts/SearchHistoryContext.tsx:31-63 | every action except a load keeps the history at most ten long and duplicate-free |
| AuthActions.StoreAuthSession | src/actions/auth.ts:8-47 | storing sets the session cookie with httpOnly, `secure` in production only, lax, path `/`, maxAge = expiresIn, and leaves every other cookie alone |
| AuthActions.StoreWritesSession | src/actions/auth.ts:35-46 | the stored cookie decodes to the token, expiry `now + expiresIn*1000` and the user |
| AuthActions.StoreThenGet | src/actions/auth.ts:97-110 | a stored session reads back before expiry with the same token, expiry and user, and the jar is untouched |
| AuthActions.StoreThenGetExpired | src/actions/auth.ts:100-103 | from the expiry on, the stored session reads as null and its cookie is deleted |
| AuthActions.GetAuthSession | src/actions/auth.ts:88-116 | a read either leaves the jar or deletes only the session cookie, and a returned session is authenticated and not yet expired |
| AuthActions.GetWithoutCookie | src/actions/auth.ts:92-94 | with no or an empty cookie, a read gives null and changes nothing |
| AuthActions.GetCorruptCookie | src/actions/auth.ts:111-115 | an undecodable cookie reads as null and is deleted |
| AuthActions.ClearAuthSession | src/actions/auth.ts:80-83 | clearing deletes the session cookie and keeps every other |
| AuthActions.ClearThenGet | src/actions/auth.ts:80-94 | after clearing, no session can be read |
| AuthActions.RemainingSeconds | src/actions/auth.ts:60 | maxAge is never negative, zero once expired, and otherwise the whole seconds left |
| AuthActions.UpdateUserInfo | src/actions/auth.ts:52-75 | with no cookie the jar is unchanged; no other cookie is ever touched |
| AuthActions.UpdateChangesOnlyUser | src/actions/auth.ts:58-70 | an update keeps the token and the absolute expiry, sets the user, and maxAge is at most the time left |
| AuthActions.UpdateCorruptCookie | src/actions/auth.ts:71-74 | an update of an undecodable cookie deletes it |
| AuthActions.UpdateKeepsExpiry | src/actions/auth.ts:58-70 | repeated updates never move the absolute expiry |
| AuthActions.ProfileToUserInfo | src/actions/auth.ts:122-144 | the mapping is null exactly when the profile call failed |
| AuthActions.ProfileTakesFirstElement | src/actions/auth.ts:128-132 | each field is the first list element's value, and `''` exactly when that is missing or empty |
| OAuthResponse.Field | src/utils/oauth.ts:25-31 | a field is present exactly when its parameter is present and non-empty, with that value |
| OAuthResponse.ExpiresIn | src/utils/oauth.ts:27 | `expires_in` is absent exactly when its parameter is missing or empty, and otherwise is `parseInt` of its value |
| OAuthResponse.ParseOAuth2Response | src/utils/oauth.ts:18-33 | with no window the response is empty; a present token, state or error is never the empty string |
| OAuthResponse.ParseWithoutWindow | src/utils/oauth.ts:19 | with no window every field is absent |
| OAuthResponse.ParseReadsFirstOccurrence | src/utils/oauth.ts:21-32 | each field is the first occurrence of its key after `#`, empty meaning absent; `expires_in` goes through `parseInt` |
| OAuthResponse.VerifyState | src/utils/oauth.ts:38-45 | with no window: false and nothing removed; otherwise exactly the pending state is removed, every other key kept, and the answer is whether it equals the received one |
| OAuthResponse.VerifyComparesStored | src/utils/oauth.ts:41-44 | verification passes exactly when the stored state equals the received one; with nothing stored it fails |
| OAuthResponse.VerifyIsReadOnce | src/utils/oauth.ts:41-44 | after any first call, a second call fails for every input |
| OAuthResponse.PutThenTake | src/utils/oauth.ts:41-44 | a stored state verifies once, leaves the rest of the storage as it was, and never verifies again |
| OAuthLib.GenerateStateToken | src/lib/oauth.ts:28-32 | the token has two characters per byte, all lower-case hex |
| OAuthLib.ByteToHexDigits | src/lib/oauth.ts:31 | a byte becomes its high and low nibble as hex digits |
| OAuthLib.StateTokenRoundTrip | src/lib/oauth.ts:28-32 | decoding the token two characters at a time gives back the bytes |
| OAuthLib.StateTokenInjective | src/lib/oauth.ts:28-32 | different bytes give different tokens |
| OAuthLib.StateTokenShape | src/lib/oauth.ts:29-31 | 32 bytes give 64 lower-case hex characters |
| OAuthLib.BuildAuthUrl | src/lib/oauth.ts:37-55 | the URL starts with the endpoint and `?`; with a window the chosen state is stored under `oauth_state` and no other key changes |
| OAuthLib.InitiateOAuth2SignIn | src/lib/oauth.ts:60-75 | the redirect URL starts with the endpoint and `?`, and the stored state is the token made from the random bytes |
| OAuthLib.AuthUrlCarriesParams | src/lib/oauth.ts:45-54 | the URL is the endpoint and `?`, and its query parses back to the parameter list |
| OAuthLib.AuthParamsClient | src/lib/oauth.ts:45-48 | read by name: `client_id`, `redirect_uri`, and `response_type=token` |
| OAuthLib.AuthParamsGrant | src/lib/oauth.ts:49-51 | read by name: the scopes space-joined, the state, and `include_granted_scopes` = `true` exactly when the flag is set |
| OAuthLib.BuildAuthUrlStoresState | src/lib/oauth.ts:38-43 | the state is `config.state` when non-empty, otherwise the fresh token; it is stored under `oauth_state` only when there is a window |
| OAuthLib.UrlStateIsStoredState | src/lib/oauth.ts:38-54 | the `state` read from the URL equals the value stored under `oauth_state` |
| OAuthLib.InitiateDefaults | src/lib/oauth.ts:60-71 | sign-in uses the origin as redirect URI, the read-only scope when none are given, `include_granted_scopes=true`, and a fresh stored token |
| OAuthLib.StoreAccessToken | src/lib/oauth.ts:122-129 | with a window the token reads back as stored, the expiry key parses to `now + expiresIn*1000`, and no other key changes |
| OAuthLib.StoreThenGetToken | src/lib/oauth.ts:122-148 | a stored non-empty token is returned exactly while `t < now0 + e*1000`; afterwards both keys are removed |
| OAuthLib.GetAccessToken | src/lib/oauth.ts:134-149 | a returned token is non-empty and leaves the storage as it was |
| OAuthLib.GetTokenMissingKey | src/lib/oauth.ts:137-140 | with either key missing the result is null and nothing changes |
| OAuthLib.GetTokenUnparsableExpiry | src/lib/oauth.ts:143 | an expiry that parses to NaN never expires the token |
| OAuthLib.ClearAccessToken | src/lib/oauth.ts:154-159 | clearing removes both keys when there is a window and keeps every other key as it was |
| OAuthLib.IsAuthenticated | src/lib/oauth.ts:164-166 | authenticated exactly when `getAccessToken` gives a token, with the same side effect; authenticated only with a window whose storage holds a non-empty access token |
| OAuthLib.ClearThenNotAuthenticated | src/lib/oauth.ts:154-166 | after a clear, and with no window, nobody is authenticated |
| GoogleLogin.InitiateLogin | src/hooks/useGoogleLogin.ts:25-51 | no redirect exactly when the client id is missing or empty, and then storage is untouched; otherwise the URL starts with the endpoint and `?` and the stored state is the fresh token |
| GoogleLogin.LoginParamsClient | src/hooks/useGoogleLogin.ts:38-42 | the request carries the client id, the origin as redirect URI, and `response_type=token` |
| GoogleLogin.LoginParamsGrant | src/hooks/useGoogleLogin.ts:4-45 | the request carries the four scopes in order, space-joined, and the state, and no `include_granted_scopes` |
| GoogleLogin.LoginUrlCarriesStoredState | src/hooks/useGoogleLogin.ts:34-50 | the URL's query parses back to the parameters, and its state is the one stored, so the callback check passes on it |
| AuthContext.AuthReducer | src/contexts/AuthContext.tsx:49-87 | the result is signed in exactly after LOGIN, or after UPDATE_USER from a signed-in state; LOGIN sets the token and stores the session; LOGOUT gives the initial state and clears the cookie; UPDATE_USER changes only the user and rewrites the cookie |
| AuthContext.ApplyEffect | src/contexts/AuthContext.tsx:51-81 | an effect touches only the session cookie: storing leaves it present and clearing leaves it absent |
| AuthContext.LoginSignsIn | src/contexts/AuthContext.tsx:51-63 | LOGIN signs in with the token and expiry `now + expiresIn*1000`, keeps the old user when none is given, and stores the payload |
| AuthContext.LogoutResets | src/contexts/AuthContext.tsx:66-70 | LOGOUT gives the initial state from any state and clears the cookie |
| AuthContext.UpdateUserOnlyUser | src/contexts/AuthContext.tsx:72-81 | UPDATE_USER changes the user and nothing else |
| AuthContext.ProviderInitialState | src/contexts/AuthContext.tsx:106 | with no server session the provider starts signed out; a given server session is used as it is |
| AuthContext.HandleOAuthCallback | src/contexts/AuthContext.tsx:112-173 | an empty fragment does nothing; any dispatch is a LOGIN without a user; going home implies the fragment was stripped and LOGIN dispatched; storage loses at most the pending state |
| AuthContext.HandleResponse | src/contexts/AuthContext.tsx:117-165 | any dispatch is a LOGIN without a user; going home implies the fragment was stripped and LOGIN dispatched; storage loses at most the pending state |
| AuthContext.CallbackReadsFragment | src/contexts/AuthContext.tsx:114-117 | an empty fragment does nothing; any other is handled as its parsed response |
| AuthContext.CallbackIgnoresOtherFragments | src/contexts/AuthContext.tsx:120 | neither token nor error: nothing dispatched, nothing replaced, storage untouched |
| AuthContext.CallbackErrorWins | src/contexts/AuthContext.tsx:123-131 | an error prevents LOGIN even with a token, strips the fragment, and leaves the pending state |
| AuthContext.CallbackLoginIff | src/contexts/AuthContext.tsx:120-164 | LOGIN exactly when token, no error, truthy `expires_in`, and an absent or matching state; then the fragment is stripped and the router goes home unless already there |
| AuthContext.CallbackRejectsForgedState | src/contexts/AuthContext.tsx:134-142 | for a token response without an error, a mismatched state gives no LOGIN, fragment stripped, pending state consumed |
| AuthContext.CallbackNotReplayable | src/contexts/AuthContext.tsx:134-152 | a response with a state cannot sign in twice |
| AuthContext.CallbackWithoutStateSkipsCheck | src/contexts/AuthContext.tsx:134 | a token response without an error and without a state skips the check and signs in on a truthy `expires_in` |
| AuthContext.CallbackFalsyExpiry | src/contexts/AuthContext.tsx:145 | for a token response without an error whose state check passes, a missing, zero or NaN `expires_in` dispatches nothing and leaves the fragment |
| AuthContext.LoadUserProfile | src/contexts/AuthContext.tsx:179-193 | the profile effect can only dispatch UPDATE_USER |
| AuthContext.ProfileLoadConditions | src/contexts/AuthContext.tsx:181-188 | nothing when signed out or on a failed fetch; when signed in with a non-empty token and a successful fetch, UPDATE_USER with the mapped profile |
| AuthContext.LoginThenRead | src/contexts/AuthContext.tsx:51-61 | LOGIN runs at the browser's clock and its cookie write at the server's; a read before the server's expiry gives the reducer's state with the payload's user and the server's expiry, none after; the two expiries agree exactly when the clocks do |
| AuthContext.SignOut | src/contexts/AuthContext.tsx:195-197 | the action sign-out dispatches takes every state to the initial one and clears the cookie |
| AuthContext.SignOutThenRead | src/contexts/AuthContext.tsx:195-197 | after sign-out the state is initial and no session can be read |
| AuthContext.UpdateUserThenRead | src/contexts/AuthContext.tsx:72-79 | UPDATE_USER rewrites the cookie with maxAge the seconds left; a read before that maxAge runs out gives the old token and expiry and the new user |
| RouteProxy.Proxy | src/proxy.ts:4-28 | a redirect goes only to `/` or `/app/login`: home only for a signed-in user on a sign-in page, the app sign-in page only for a signed-out user on an `/app` path |
| RouteProxy.ProxyDecision | src/proxy.ts:14-27 | the full decision table: home, app sign-in page or Next, each with its exact condition; the two redirects never both apply |
| RouteProxy.LoggedInIsAuthToken | src/proxy.ts:10-11 | signed in means a present, non-empty `auth-token` cookie and depends on no other cookie |
| RouteProxy.SessionCookieIgnored | src/proxy.ts:10 | the `youtube_auth_session` cookie changes no decision |
| RouteProxy.NoRedirectLoop | src/proxy.ts:6-27 | following a redirect with the same cookies is let through |
| VideoUploadSchema.FailedFields | src/lib/form/schemas/videoUploadSchema.ts:8-41 | a field is reported exactly when its rules fail |
| VideoUploadSchema.ValidIffNoFailures | src/lib/form/schemas/videoUploadSchema.ts:8-41 | the form is valid exactly when no field fails |
| VideoUploadSchema.FieldsIndependent | src/lib/form/schemas/videoUploadSchema.ts:8-41 | for each of the five fields, changing only that field changes only whether that field fails |
| VideoUploadSchema.Utf16LengthOfBmp | src/lib/form/schemas/videoUploadSchema.ts:13 | without surrogate pairs, the UTF-16 length is the character count |
| VideoUploadSchema.TitleBoundary | src/lib/form/schemas/videoUploadSchema.ts:9-13 | for text without characters above U+FFFF, a title passes exactly when it has 1 to 100 characters; a missing one fails |
| VideoUploadSchema.DescriptionBoundary | src/lib/form/schemas/videoUploadSchema.ts:14-17 | for text without characters above U+FFFF, a description passes exactly when it has 1 to 5000 characters |
| VideoUploadSchema.CategoryOnlyRequired | src/lib/form/schemas/videoUploadSchema.ts:18 | any non-empty category passes |
| VideoUploadSchema.PrivacyValues | src/lib/form/schemas/videoUploadSchema.ts:19-25 | exactly `public`, `unlisted` and `private` pass |
| VideoUploadSchema.SizeBoundary | src/lib/form/schemas/videoUploadSchema.ts:29-35 | exactly 104,857,600 bytes passes; one more fails |
| VideoUploadSchema.MissingVideoFails | src/lib/form/schemas/videoUploadSchema.ts:26-40 | a missing file fails every file rule |
| VideoUploadSchema.VideoTypes | src/lib/form/schemas/videoUploadSchema.ts:36-40 | `video/…` and `application/octet-stream` pass; any other type fails |
| VideoActions.UploadVideoAction | src/actions/video.ts:18-56 | the upload is called exactly when the file and the four fields are present, with the file and the fields as metadata; otherwise the file error comes before the fields error |
| VideoActions.MissingVideoFirst | src/actions/video.ts:25-27 | with no file: the file error and no upload, whatever the other fields hold |
| VideoActions.MissingFieldNoUpload | src/actions/video.ts:30-32 | with a file but an empty field: the fields error and no upload |
| VideoActions.UploadIffComplete | src/actions/video.ts:25-47 | the upload is called exactly when the file and all fields are present, with the parameters copied unchanged |
| VideoActions.UploadResultPassesThrough | src/actions/video.ts:47-55 | the upload's answer is returned unchanged; an `Error` keeps its message, anything else gets the fixed message |
| VideoActions.ValidFormReachesUpload | src/actions/video.ts:25-47 | a form the schema accepts always reaches the upload |

## Left out

- Percent-encoding and `+` decoding of `URLSearchParams`. Parameters are read and written
  verbatim. The URL round-trip lemmas therefore require values without `&`.
- `JSON.stringify` and `JSON.parse`. They are an abstract `Codec`; the round-trip lemmas
  assume it decodes what it encoded (`ValidCodec`).
- Floating-point numbers. Times, `expiresIn` and sizes are integers, so fractional seconds and
  rounding in `expiresIn * 1000` are not modelled. `parseInt` is exact on arbitrarily long
  digit runs, with no loss of precision.
- Text.ParseInt: radix detection covers only the `0x` prefix and the default radix 10.
- AuthActions.GetAuthSession: the decoded session is typed, so a cookie whose JSON parses to a
  value without the session's fields (`{}` or `5`) is not modelled. The code would read that as
  authenticated with no token or expiry, and the expiry check would never evict it.
- AuthContext.UpdateUserThenRead: the cookie jar keeps a cookie until it is deleted; the
  browser's own `Max-Age` expiry is not modelled, so the read claim holds only before `maxAge`
  runs out.
- Text.ParseIntOfIntToString: `String(n)` switches to exponent form from 10^21 on, and
  `parseInt("1e+21")` is 1. `IntToString` always writes plain digits, so the round trip is not
  promised for such numbers in the code.
- OAuthLib.StoreThenGetToken: the stored expiry goes through `String(n)`, so the same exponent
  form limit applies to expiries of 10^21 milliseconds and more.
- Asynchrony. The server actions fired inside the reducer are returned as effects and applied
  in order. Their fire-and-forget timing is not modelled, and neither is the ordering of the
  profile effect relative to the callback.
- AuthContext.HandleOAuthCallback: the `try`/`catch` around the handler and its logging are
  left out. Nothing in the modelled parser throws.
- Logging (`console.error` and the logger), the router's own behaviour, and the React
  providers and hooks around the reducers.
- The `localStorage` persistence of the search history. It is provider code outside the reducer.
- `crypto.getRandomValues`. The 32 bytes are an input.
- The guard's `matcher` configuration. It decides which requests reach the guard, which is
  routing, not a decision the guard makes.
- VideoUploadSchema.FailedFields: reports which fields fail, not yup's error messages or their
  order.
- yup's type coercion of non-string values.
- The People API and YouTube upload calls themselves. They are given as their results.
- The `useAuth` hook's error when used outside the provider. It is React wiring.

=== FILE: auth_actions.dfy ===
/**
 * The server actions that keep the signed-in session in one cookie,
 * `youtube_auth_session`: create, update the user, clear, read, and the mapping
 * of a People API profile to a `UserInfo`. The cookie jar and the clock are
 * explicit values; the JSON codec is a parameter (see `Codec`).
 */
module AuthActions {
  import opened Wrappers
  import opened AuthTypes

  const AuthCookieName: string := "youtube_auth_session"

  /** Flags the session cookie is written with; `secure` only in production. */
  datatype CookieOptions = CookieOptions(
    httpOnly: bool,
    secure: bool,
    sameSite: string,
    path: string,
    maxAge: int)

  datatype Cookie = Cookie(value: string, options: CookieOptions)

  /** The request's cookie store, by cookie name. */
  type CookieJar = map<string, Cookie>

  /** The persisted session: `tokenExpiresAt` is an absolute time in milliseconds; `user` may be absent. */
  datatype AuthSession = AuthSession(accessToken: string, tokenExpiresAt: int, user: Option<UserInfo>)

  /**
   * `JSON.stringify` and `JSON.parse` of a session. Decoding may fail (None), which
   * stands for `JSON.parse` throwing, or for reading a field of a parsed `null` throwing.
   * A value that parses but lacks the session's fields has no counterpart here.
   */
  datatype Codec = Codec(encode: AuthSession -> string, decode: string -> Option<AuthSession>)

  /** A codec whose output is never empty and decodes back to the session it encoded. */
  ghost predicate ValidCodec(c: Codec) {
    forall s :: c.encode(s) != "" && c.decode(c.encode(s)) == Some(s)
  }

  function SessionCookie(value: string, maxAge: int, production: bool): Cookie {
    Cookie(value, CookieOptions(true, production, "lax", "/", maxAge))
  }

  /** `storeAuthSession`: writes the session with absolute expiry `now + expiresIn*1000` and `maxAge = expiresIn`. */
  function StoreAuthSession(
    jar: CookieJar, now: int, production: bool, codec: Codec,
    accessToken: string, expiresIn: int, user: Option<UserInfo>): (r: CookieJar)
    ensures AuthCookieName in r
    ensures r[AuthCookieName].options == CookieOptions(true, production, "lax", "/", expiresIn)
    ensures r - {AuthCookieName} == jar - {AuthCookieName}
  {
    var session := AuthSession(accessToken, now + expiresIn * 1000, user);
    jar[AuthCookieName := SessionCookie(codec.encode(session), expiresIn, production)]
  }

  /** `clearAuthSession`: deletes the session cookie and nothing else. */
  function ClearAuthSession(jar: CookieJar): (r: CookieJar)
    ensures AuthCookieName !in r
    ensures forall k :: k in jar && k != AuthCookieName ==> k in r && r[k] == jar[k]
    ensures r.Keys <= jar.Keys
  {
    jar - {AuthCookieName}
  }

  /** What a read returns, and the jar it leaves behind. */
  datatype ReadResult = ReadResult(session: Option<AuthState>, jar: CookieJar)

  /** The session cookie's value when it is present and non-empty (`authCookie?.value` truthy). */
  function CookieValue(jar: CookieJar): Option<string> {
    if AuthCookieName in jar && jar[AuthCookieName].value != "" then Some(jar[AuthCookieName].value) else None
  }

  /**
   * `getAuthSession`: no cookie gives null and leaves the jar alone; an undecodable
   * or expired (`now >= tokenExpiresAt`) session gives null and deletes the cookie.
   */
  function GetAuthSession(jar: CookieJar, now: int, codec: Codec): (r: ReadResult)
    ensures r.jar == jar || r.jar == ClearAuthSession(jar)
    ensures r.session.Some? ==> r.jar == jar
    ensures r.session.Some? ==> var s := r.session.value;
              s.isAuthenticated && s.accessToken.Some? && s.tokenExpiresAt.Some? && now < s.tokenExpiresAt.value
  {
    match CookieValue(jar)
    case None => ReadResult(None, jar)
    case Some(raw) =>
      match codec.decode(raw)
      case None => ReadResult(None, ClearAuthSession(jar))
      case Some(session) =>
        if now >= session.tokenExpiresAt then ReadResult(None, ClearAuthSession(jar))
        else ReadResult(Some(AuthState(true, Some(session.accessToken), Some(session.tokenExpiresAt), session.user)), jar)
  }

  /** `Math.max(0, Math.floor((tokenExpiresAt - now) / 1000))`: whole seconds left, never negative. */
  function RemainingSeconds(tokenExpiresAt: int, now: int): (secs: int)
    ensures secs >= 0
    ensures tokenExpiresAt <= now ==> secs == 0
    ensures tokenExpiresAt > now ==> secs * 1000 <= tokenExpiresAt - now < (secs + 1) * 1000
  {
    var d := tokenExpiresAt - now;
    var f := d / 1000;
    if f < 0 then 0 else f
  }

  /**
   * `updateUserInfo`: with no cookie nothing happens; an undecodable cookie is deleted;
   * otherwise the session is rewritten with the new user and `maxAge` set to the seconds left.
   */
  function UpdateUserInfo(jar: CookieJar, now: int, production: bool, codec: Codec, user: UserInfo): (r: CookieJar)
    ensures CookieValue(jar).None? ==> r == jar
    ensures r - {AuthCookieName} == jar - {AuthCookieName}
  {
    match CookieValue(jar)
    case None => jar
    case Some(raw) =>
      match codec.decode(raw)
      case None => ClearAuthSession(jar)
      case Some(session) =>
        var maxAge := RemainingSeconds(session.tokenExpiresAt, now);
        var updated := session.(user := Some(user));
        jar[AuthCookieName := SessionCookie(codec.encode(updated), maxAge, production)]
  }

  /* ----- Profile mapping ----- */

  datatype PersonName = PersonName(displayName: Option<string>)
  datatype PersonEmailAddress = PersonEmailAddress(value: Option<string>)
  datatype PersonPhoto = PersonPhoto(url: Option<string>)

  /** The fields of a People API `Person` the application reads. */
  datatype Person = Person(
    names: Option<seq<PersonName>>,
    emailAddresses: Option<seq<PersonEmailAddress>>,
    photos: Option<seq<PersonPhoto>>)

  /**
   * The chosen field of the list's first element when the list is present, non-empty and that
   * field is a non-empty string; the empty string otherwise (`list?.[0]?.field || ''`).
   */
  function FirstOrEmpty<T>(list: Option<seq<T>>, field: T -> Option<string>): string {
    if list.Some? && |list.value| > 0 && field(list.value[0]).Some? then field(list.value[0]).value else ""
  }

  /**
   * `fetchAndUpdateUserProfile` once the People API call has completed (`fetched`):
   * a failed call gives null; a profile gives the first name, e-mail and photo, each `''` when missing.
   */
  function ProfileToUserInfo(fetched: Result<Person, Thrown>): (r: Option<UserInfo>)
    ensures r.None? <==> fetched.Failure?
  {
    match fetched
    case Failure(_) => None
    case Success(p) =>
      Some(UserInfo(
        FirstOrEmpty(p.names, (n: PersonName) => n.displayName),
        FirstOrEmpty(p.emailAddresses, (e: PersonEmailAddress) => e.value),
        FirstOrEmpty(p.photos, (ph: PersonPhoto) => ph.url)))
  }

  /* ----- Properties ----- */

  /** Storing writes a cookie that decodes to the token, the absolute expiry and the user, with `maxAge = expiresIn`. */
  lemma StoreWritesSession(
    jar: CookieJar, now: int, production: bool, codec: Codec,
    accessToken: string, expiresIn: int, user: Option<UserInfo>)
    requires ValidCodec(codec)
    ensures var c := StoreAuthSession(jar, now, production, codec, accessToken, expiresIn, user)[AuthCookieName];
            && c.value != ""
            && codec.decode(c.value) == Some(AuthSession(accessToken, now + expiresIn * 1000, user))
            && c.options.maxAge == expiresIn
  {
  }

  /**
   * Round trip: a session stored at `now` reads back, at any `t` before its expiry, with the
   * same token, expiry and user (an absent user reading as null), and the read leaves the jar alone.
   */
  lemma StoreThenGet(
    jar: CookieJar, now: int, t: int, production: bool, codec: Codec,
    accessToken: string, expiresIn: int, user: Option<UserInfo>)
    requires ValidCodec(codec)
    requires t < now + expiresIn * 1000
    ensures var stored := StoreAuthSession(jar, now, production, codec, accessToken, expiresIn, user);
            GetAuthSession(stored, t, codec)
              == ReadResult(Some(AuthState(true, Some(accessToken), Some(now + expiresIn * 1000), user)), stored)
  {
    StoreWritesSession(jar, now, production, codec, accessToken, expiresIn, user);
  }

  /** Expiry boundary: from `tokenExpiresAt` on, the stored session reads as null and its cookie is deleted. */
  lemma StoreThenGetExpired(
    jar: CookieJar, now: int, t: int, production: bool, codec: Codec,
    accessToken: string, expiresIn: int, user: Option<UserInfo>)
    requires ValidCodec(codec)
    requires t >= now + expiresIn * 1000
    ensures var stored := StoreAuthSession(jar, now, production, codec, accessToken, expiresIn, user);
            var r := GetAuthSession(stored, t, codec);
            r.session == None && AuthCookieName !in r.jar && r.jar == jar - {AuthCookieName}
  {
    StoreWritesSession(jar, now, production, codec, accessToken, expiresIn, user);
  }

  /** With no session cookie (or an empty one) a read gives null and changes nothing. */
  lemma GetWithoutCookie(jar: CookieJar, now: int, codec: Codec)
    requires AuthCookieName !in jar || jar[AuthCookieName].value == ""
    ensures GetAuthSession(jar, now, codec) == ReadResult(None, jar)
  {
  }

  /** A cookie that does not decode reads as null and is removed: the store heals itself. */
  lemma GetCorruptCookie(jar: CookieJar, now: int, codec: Codec)
    requires AuthCookieName in jar && jar[AuthCookieName].value != ""
    requires codec.decode(jar[AuthCookieName].value).None?
    ensures var r := GetAuthSession(jar, now, codec);
            r.session == None && AuthCookieName !in r.jar && r.jar == jar - {AuthCookieName}
  {
  }

  /** After a clear, a read finds no session. */
  lemma ClearThenGet(jar: CookieJar, now: int, codec: Codec)
    ensures GetAuthSession(ClearAuthSession(jar), now, codec).session == None
  {
  }

  /**
   * Updating the user of a readable session changes only the user: the token and the
   * absolute expiry stay, and `maxAge` becomes the whole seconds left (zero once expired).
   */
  lemma UpdateChangesOnlyUser(jar: CookieJar, now: int, production: bool, codec: Codec, user: UserInfo)
    requires ValidCodec(codec)
    requires CookieValue(jar).Some? && codec.decode(CookieValue(jar).value).Some?
    ensures var prev := codec.decode(CookieValue(jar).value).value;
            var c := UpdateUserInfo(jar, now, production, codec, user)[AuthCookieName];
            && codec.decode(c.value) == Some(AuthSession(prev.accessToken, prev.tokenExpiresAt, Some(user)))
            && c.options.maxAge >= 0
            && c.options.maxAge * 1000 <= (if prev.tokenExpiresAt > now then prev.tokenExpiresAt - now else 0)
  {
  }

  /** Updating a cookie that does not decode deletes it instead. */
  lemma UpdateCorruptCookie(jar: CookieJar, now: int, production: bool, codec: Codec, user: UserInfo)
    requires CookieValue(jar).Some? && codec.decode(CookieValue(jar).value).None?
    ensures UpdateUserInfo(jar, now, production, codec, user) == jar - {AuthCookieName}
  {
  }

  /**
   * Updating the same user twice keeps the absolute expiry: the second update reads back the
   * same `tokenExpiresAt`, so no amount of refreshing extends the session.
   */
  lemma UpdateKeepsExpiry(jar: CookieJar, now: int, later: int, production: bool, codec: Codec, user: UserInfo)
    requires ValidCodec(codec)
    requires CookieValue(jar).Some? && codec.decode(CookieValue(jar).value).Some?
    ensures var once := UpdateUserInfo(jar, now, production, codec, user);
            var twice := UpdateUserInfo(once, later, production, codec, user);
            codec.decode(twice[AuthCookieName].value) == codec.decode(once[AuthCookieName].value)
  {
    var s := codec.decode(CookieValue(jar).value).value;
    var once := UpdateUserInfo(jar, now, production, codec, user);
    var s1 := AuthSession(s.accessToken, s.tokenExpiresAt, Some(user));
    assert codec.decode(once[AuthCookieName].value) == Some(s1);
    assert CookieValue(once) == Some(once[AuthCookieName].value);
    assert s1.(user := Some(user)) == s1;
  }

  /**
   * Each mapped field is the first list element's field when that is a non-empty string,
   * and `''` exactly when the list is missing, empty, or its first element lacks the field.
   */
  lemma ProfileTakesFirstElement(p: Person)
    ensures var u := ProfileToUserInfo(Success(p)).value;
            && (u.name != "" <==> p.names.Some? && |p.names.value| > 0
                                  && p.names.value[0].displayName.Some? && p.names.value[0].displayName.value != "")
            && (u.name != "" ==> p.names.value[0].displayName == Some(u.name))
            && (u.email != "" <==> p.emailAddresses.Some? && |p.emailAddresses.value| > 0
                                   && p.emailAddresses.value[0].value.Some? && p.emailAddresses.value[0].value.value != "")
            && (u.email != "" ==> p.emailAddresses.value[0].value == Some(u.email))
            && (u.picture != "" <==> p.photos.Some? && |p.photos.value| > 0
                                     && p.photos.value[0].url.Some? && p.photos.value[0].url.value != "")
            && (u.picture != "" ==> p.photos.value[0].url == Some(u.picture))
  {
  }
}

=== FILE: auth_context.dfy ===
/**
 * The client-side authentication state: the `authReducer` with the server action each
 * step fires, the provider's initial state, the handling of the OAuth callback found
 * in the URL fragment, the profile load, and sign-out. Effects on the session cookie
 * are returned as values and applied with the `AuthActions` functions.
 */
module AuthContext {
  import opened Wrappers
  import opened Text
  import opened WebStorage
  import opened AuthTypes
  import opened OAuthResponse
  import opened AuthActions

  /** Signed out: no token, no expiry, no user. */
  const InitialState: AuthState := AuthState(false, None, None, None)

  datatype AuthAction =
    | Login(accessToken: string, expiresIn: int, user: Option<UserInfo>)
    | Logout
    | UpdateUser(profile: UserInfo)

  /** The server action a reducer step calls (without awaiting it). */
  datatype Effect =
    | StoreSession(accessToken: string, expiresIn: int, user: Option<UserInfo>)
    | ClearSession
    | UpdateUserCookie(profile: UserInfo)

  datatype Step = Step(state: AuthState, effect: Effect)

  /**
   * `authReducer` at time `now` (milliseconds): LOGIN signs in with absolute expiry
   * `now + expiresIn*1000`, keeping the old user when the payload has none; LOGOUT returns
   * the initial state; UPDATE_USER replaces only the user.
   */
  function AuthReducer(state: AuthState, action: AuthAction, now: int): (r: Step)
    ensures r.state.isAuthenticated <==> action.Login? || (action.UpdateUser? && state.isAuthenticated)
    ensures action.Login? ==> r.state.accessToken == Some(action.accessToken)
                              && r.effect == StoreSession(action.accessToken, action.expiresIn, action.user)
    ensures action.Logout? ==> r.state == InitialState && r.effect == ClearSession
    ensures action.UpdateUser? ==> r.state == state.(user := Some(action.profile))
                                   && r.effect == UpdateUserCookie(action.profile)
  {
    match action
    case Login(token, e, user) =>
      Step(AuthState(true, Some(token), Some(now + e * 1000), if user.Some? then user else state.user),
           StoreSession(token, e, user))
    case Logout => Step(InitialState, ClearSession)
    case UpdateUser(user) => Step(state.(user := Some(user)), UpdateUserCookie(user))
  }

  /** Running a step's server action against the cookie jar. */
  function ApplyEffect(jar: CookieJar, now: int, production: bool, codec: Codec, effect: Effect): (r: CookieJar)
    ensures r - {AuthCookieName} == jar - {AuthCookieName}
    ensures effect.StoreSession? ==> AuthCookieName in r
    ensures effect.ClearSession? ==> AuthCookieName !in r
  {
    match effect
    case StoreSession(token, e, user) => StoreAuthSession(jar, now, production, codec, token, e, user)
    case ClearSession => ClearAuthSession(jar)
    case UpdateUserCookie(user) => UpdateUserInfo(jar, now, production, codec, user)
  }

  /** `initialSession || initialState`: the server-read session when there is one. */
  function ProviderInitialState(initialSession: Option<AuthState>): (r: AuthState)
    ensures initialSession.None? ==> !r.isAuthenticated && r.accessToken.None? && r.user.None?
    ensures initialSession.Some? ==> r == initialSession.value
  {
    initialSession.GetOr(InitialState)
  }

  /* ----- OAuth callback ----- */

  /**
   * The effect of one run of the callback handler: the action dispatched (if any), whether the
   * URL was replaced by the bare pathname (dropping the fragment), whether the router was sent
   * to `/`, and `sessionStorage` afterwards.
   */
  datatype CallbackOutcome = CallbackOutcome(
    dispatched: Option<AuthAction>,
    replaceUrl: bool,
    pushHome: bool,
    storage: Store)

  /**
   * `handleOAuthCallback` for fragment `hash` on page `pathname`: an empty fragment does
   * nothing; any other is parsed and handled by `HandleResponse`.
   */
  function HandleOAuthCallback(hash: string, storage: Store, pathname: string): (r: CallbackOutcome)
    ensures hash == "" ==> r.dispatched.None? && !r.replaceUrl && r.storage == storage
    ensures r.dispatched.Some? ==> r.dispatched.value.Login? && r.dispatched.value.user.None?
    ensures r.pushHome ==> r.replaceUrl && r.dispatched.Some?
    ensures r.storage == storage || r.storage == storage - {OAuthStateKey}
  {
    if hash == "" then CallbackOutcome(None, false, false, storage)
    else HandleResponse(ParseOAuth2Response(Some(hash)), storage, pathname)
  }

  /**
   * The callback's decisions on a parsed response, in order: neither token nor error does
   * nothing; an error drops the fragment; a state that is present and fails the read-once
   * check drops the fragment; a token with a truthy `expires_in` dispatches LOGIN, drops the
   * fragment, and goes home unless already there; anything else does nothing more.
   */
  function HandleResponse(response: OAuth2Response, storage: Store, pathname: string): (r: CallbackOutcome)
    ensures r.dispatched.Some? ==> r.dispatched.value.Login? && r.dispatched.value.user.None?
    ensures r.pushHome ==> r.replaceUrl && r.dispatched.Some?
    ensures r.storage == storage || r.storage == storage - {OAuthStateKey}
  {
    if response.accessToken.None? && response.error.None? then CallbackOutcome(None, false, false, storage)
    else if response.error.Some? then CallbackOutcome(None, true, false, storage)
    else
      var v := if response.state.Some? then VerifyState(Some(storage), response.state.value)
               else Verification(true, Some(storage));
      var storage' := v.storage.GetOr(storage);
      if !v.ok then CallbackOutcome(None, true, false, storage')
      else if response.accessToken.Some? && response.expiresIn.Truthy() then
        CallbackOutcome(Some(Login(response.accessToken.value, response.expiresIn.n, None)),
                        true, pathname != "/", storage')
      else CallbackOutcome(None, false, false, storage')
  }

  /** Whether the pending state check lets a response through: no state skips it, a state must match. */
  predicate StateAccepted(response: OAuth2Response, storage: Store) {
    response.state.None? || GetItem(storage, OAuthStateKey) == response.state
  }

  /* ----- Profile load and sign-out ----- */

  /**
   * The profile effect: when signed in with a token, the fetched profile (or its failure) decides
   * whether UPDATE_USER is dispatched; otherwise nothing is fetched.
   */
  function LoadUserProfile(state: AuthState, fetched: Result<Person, Thrown>): (r: Option<AuthAction>)
    ensures r.Some? ==> r.value.UpdateUser?
  {
    if state.isAuthenticated && state.accessToken.Some? && state.accessToken.value != "" then
      match ProfileToUserInfo(fetched)
      case Some(user) => Some(UpdateUser(user))
      case None => None
    else None
  }

  /** `signOut`: dispatches LOGOUT. */
  function SignOut(): (a: AuthAction)
    ensures forall state: AuthState, now: int :: AuthReducer(state, a, now) == Step(InitialState, ClearSession)
  {
    Logout
  }

  /* ----- Properties ----- */

  /** LOGIN signs in with exactly the given token and absolute expiry, and stores the payload as given. */
  lemma LoginSignsIn(state: AuthState, token: string, e: int, user: Option<UserInfo>, now: int)
    ensures var step := AuthReducer(state, Login(token, e, user), now);
            && step.state.isAuthenticated
            && step.state.accessToken == Some(token)
            && step.state.tokenExpiresAt == Some(now + e * 1000)
            && (user.Some? ==> step.state.user == user)
            && (user.None? ==> step.state.user == state.user)
            && step.effect == StoreSession(token, e, user)
  {
  }

  /** LOGOUT forgets everything, whatever the state was, and clears the cookie. */
  lemma LogoutResets(state: AuthState, now: int)
    ensures AuthReducer(state, Logout, now) == Step(InitialState, ClearSession)
    ensures !AuthReducer(state, SignOut(), now).state.isAuthenticated
  {
  }

  /** UPDATE_USER changes the user and nothing else. */
  lemma UpdateUserOnlyUser(state: AuthState, user: UserInfo, now: int)
    ensures var s := AuthReducer(state, UpdateUser(user), now).state;
            && s.user == Some(user)
            && s.isAuthenticated == state.isAuthenticated
            && s.accessToken == state.accessToken
            && s.tokenExpiresAt == state.tokenExpiresAt
  {
  }

  /** An empty fragment does nothing at all; any other is handled by what it parses to. */
  lemma CallbackReadsFragment(hash: string, storage: Store, pathname: string)
    ensures hash == "" ==> HandleOAuthCallback(hash, storage, pathname) == CallbackOutcome(None, false, false, storage)
    ensures hash != "" ==> HandleOAuthCallback(hash, storage, pathname)
                           == HandleResponse(ParseOAuth2Response(Some(hash)), storage, pathname)
  {
  }

  /** A response without token and without error is not an OAuth response: nothing happens. */
  lemma CallbackIgnoresOtherFragments(response: OAuth2Response, storage: Store, pathname: string)
    requires response.accessToken.None? && response.error.None?
    ensures HandleResponse(response, storage, pathname) == CallbackOutcome(None, false, false, storage)
  {
  }

  /** An error response never signs in; it drops the fragment and leaves the pending state untouched. */
  lemma CallbackErrorWins(response: OAuth2Response, storage: Store, pathname: string)
    requires response.error.Some?
    ensures HandleResponse(response, storage, pathname) == CallbackOutcome(None, true, false, storage)
  {
  }

  /**
   * LOGIN is dispatched exactly when the response carries a token, no error, a truthy
   * `expires_in`, and a state that is absent or equals the pending one; the action then
   * holds that token and number, the fragment is dropped, and the router goes home
   * unless already there.
   */
  lemma CallbackLoginIff(response: OAuth2Response, storage: Store, pathname: string)
    ensures var out := HandleResponse(response, storage, pathname);
            && (out.dispatched.Some? <==>
                  response.accessToken.Some? && response.error.None?
                  && response.expiresIn.Truthy() && StateAccepted(response, storage))
            && (out.dispatched.Some? ==>
                  && out.dispatched.value == Login(response.accessToken.value, response.expiresIn.n, None)
                  && out.replaceUrl
                  && (out.pushHome <==> pathname != "/"))
  {
  }

  /** A state that does not match the pending one is rejected: no LOGIN, fragment dropped, pending state consumed. */
  lemma CallbackRejectsForgedState(response: OAuth2Response, storage: Store, pathname: string)
    requires response.error.None? && response.accessToken.Some?
    requires response.state.Some? && GetItem(storage, OAuthStateKey) != response.state
    ensures var out := HandleResponse(response, storage, pathname);
            && out.dispatched.None? && out.replaceUrl && !out.pushHome
            && out.storage == storage - {OAuthStateKey}
  {
  }

  /**
   * A response that carries a state cannot sign in twice: after a run that dispatched LOGIN
   * the pending state is gone, so replaying the same fragment is rejected.
   */
  lemma CallbackNotReplayable(response: OAuth2Response, storage: Store, pathname: string)
    requires response.state.Some?
    requires HandleResponse(response, storage, pathname).dispatched.Some?
    ensures var first := HandleResponse(response, storage, pathname);
            HandleResponse(response, first.storage, pathname).dispatched.None?
  {
    var first := HandleResponse(response, storage, pathname);
    assert OAuthStateKey !in first.storage;
  }

  /**
   * A response without a state skips the check entirely and leaves `sessionStorage` as it was:
   * with a token and a truthy `expires_in` it signs in whatever state is pending.
   */
  lemma CallbackWithoutStateSkipsCheck(response: OAuth2Response, storage: Store, pathname: string)
    requires response.error.None? && response.accessToken.Some? && response.state.None?
    ensures var out := HandleResponse(response, storage, pathname);
            && out.storage == storage
            && (out.dispatched.Some? <==> response.expiresIn.Truthy())
  {
  }

  /**
   * A token whose `expires_in` is missing, zero or not a number passes the state check
   * silently: no LOGIN and the fragment stays.
   */
  lemma CallbackFalsyExpiry(response: OAuth2Response, storage: Store, pathname: string)
    requires response.error.None? && response.accessToken.Some? && !response.expiresIn.Truthy()
    requires StateAccepted(response, storage)
    ensures var out := HandleResponse(response, storage, pathname);
            out.dispatched.None? && !out.replaceUrl && !out.pushHome
  {
  }

  /** The profile is fetched only when signed in with a token, and a failed fetch changes nothing. */
  lemma ProfileLoadConditions(state: AuthState, fetched: Result<Person, Thrown>)
    ensures !state.isAuthenticated ==> LoadUserProfile(state, fetched).None?
    ensures fetched.Failure? ==> LoadUserProfile(state, fetched).None?
    ensures state.isAuthenticated && state.accessToken.Some? && state.accessToken.value != "" && fetched.Success?
            ==> LoadUserProfile(state, fetched) == Some(UpdateUser(ProfileToUserInfo(fetched).value))
  {
  }

  /**
   * End to end: the reducer runs LOGIN at the browser's clock `now`, and the server action it
   * fires writes the cookie at the server's clock `serverNow`, which may differ. Reading the
   * session before the server's expiry gives the reducer's state back with the payload's user
   * and the server's expiry; at or after that expiry the read gives nothing. The two expiries
   * agree exactly when the two clocks do.
   */
  lemma LoginThenRead(state: AuthState, token: string, e: int, user: Option<UserInfo>,
                      now: int, serverNow: int, later: int, jar: CookieJar, production: bool, codec: Codec)
    requires ValidCodec(codec)
    ensures var step := AuthReducer(state, Login(token, e, user), now);
            var expiresAt := serverNow + e * 1000;
            var read := GetAuthSession(ApplyEffect(jar, serverNow, production, codec, step.effect), later, codec);
            && (later < expiresAt ==>
                  read.session == Some(step.state.(user := user, tokenExpiresAt := Some(expiresAt))))
            && (later >= expiresAt ==> read.session.None?)
            && (step.state.tokenExpiresAt == Some(expiresAt) <==> now == serverNow)
  {
    var step := AuthReducer(state, Login(token, e, user), now);
    var jar' := ApplyEffect(jar, serverNow, production, codec, step.effect);
    var session := AuthSession(token, serverNow + e * 1000, user);
    assert CookieValue(jar') == Some(codec.encode(session));
    assert codec.decode(codec.encode(session)) == Some(session);
  }

  /** End to end: after sign-out the state is the initial one and no session can be read back. */
  lemma SignOutThenRead(state: AuthState, now: int, later: int, jar: CookieJar, production: bool, codec: Codec)
    ensures var step := AuthReducer(state, SignOut(), now);
            && step.state == InitialState
            && GetAuthSession(ApplyEffect(jar, now, production, codec, step.effect), later, codec).session.None?
  {
  }

  /**
   * End to end: UPDATE_USER rewrites the cookie with `maxAge` set to the whole seconds left
   * before the stored expiry, and a read that falls inside that `maxAge` window (so a
   * browser still holds the cookie) gives the stored token and expiry with the new user.
   */
  lemma UpdateUserThenRead(state: AuthState, user: UserInfo, now: int, later: int, jar: CookieJar,
                           production: bool, codec: Codec, token: string, expiresAt: int, prior: Option<UserInfo>)
    requires ValidCodec(codec)
    requires CookieValue(jar) == Some(codec.encode(AuthSession(token, expiresAt, prior)))
    requires now <= later
    ensures var step := AuthReducer(state, UpdateUser(user), now);
            var jar' := ApplyEffect(jar, now, production, codec, step.effect);
            && AuthCookieName in jar'
            && jar'[AuthCookieName].options.maxAge == RemainingSeconds(expiresAt, now)
            && (later < now + jar'[AuthCookieName].options.maxAge * 1000 ==>
                  GetAuthSession(jar', later, codec).session
                    == Some(AuthState(true, Some(token), Some(expiresAt), Some(user))))
  {
    var session := AuthSession(token, expiresAt, prior);
    assert codec.decode(codec.encode(session)) == Some(session);
    var updated := session.(user := Some(user));
    var jar' := UpdateUserInfo(jar, now, production, codec, user);
    assert CookieValue(jar') == Some(codec.encode(updated));
    assert codec.decode(codec.encode(updated)) == Some(updated);
  }
}

=== FILE: auth_types.dfy ===
/** The authentication records shared by the server actions and the client context. */
module AuthTypes {
  import opened Wrappers

  /** Display name, e-mail address and avatar URL of the signed-in user. */
  datatype UserInfo = UserInfo(name: string, email: string, picture: string)

  /**
   * The client's view of the session: `null` fields are None. It is also the shape
   * `getAuthSession` returns, which seeds the client context.
   */
  datatype AuthState = AuthState(
    isAuthenticated: bool,
    accessToken: Option<string>,
    tokenExpiresAt: Option<int>,
    user: Option<UserInfo>)
}

=== FILE: google_login.dfy ===
/**
 * The `useGoogleLogin` hook's `initiateLogin`: a second, self-contained builder of the
 * implicit-grant authorization request. It requests four fixed scopes, always stores a
 * fresh state token, sends no `include_granted_scopes`, and does nothing at all when the
 * public client id is not configured.
 */
module GoogleLogin {
  import opened Wrappers
  import opened Text
  import opened UrlParams
  import opened WebStorage
  import OAuthResponse
  import OAuthLib

  const ScopeProfile: string := OAuthLib.ScopeBase + "userinfo.profile"
  const ScopeEmail: string := OAuthLib.ScopeBase + "userinfo.email"

  /** The scopes the hook requests, in order. */
  const LoginScopes: seq<string> := [ScopeProfile, ScopeEmail, OAuthLib.ScopeReadonly, OAuthLib.ScopeUpload]

  /** The hook's parameter list, in the order it builds it. */
  function LoginParams(clientId: string, redirectUri: string, state: string): seq<Pair> {
    [ Pair("client_id", clientId),
      Pair("redirect_uri", redirectUri),
      Pair("response_type", "token"),
      Pair("scope", Join(LoginScopes, " ")),
      Pair("state", state) ]
  }

  /** Where the browser is sent (None: nowhere) and `sessionStorage` afterwards. */
  datatype LoginOutcome = LoginOutcome(navigateTo: Option<string>, storage: Store)

  /**
   * `initiateLogin`, given the configured client id (None when the variable is unset),
   * the page's origin, the random bytes behind the state token, and `sessionStorage`.
   */
  function InitiateLogin(clientId: Option<string>, origin: string, randomBytes: seq<OAuthLib.byte>,
                         storage: Store): (r: LoginOutcome)
    ensures r.navigateTo.None? <==> clientId.None? || clientId.value == ""
    ensures r.navigateTo.None? ==> r.storage == storage
    ensures r.navigateTo.Some? ==> StartsWith(r.navigateTo.value, OAuthLib.OAuth2Endpoint + "?")
    ensures r.navigateTo.Some? ==>
              GetItem(r.storage, OAuthResponse.OAuthStateKey) == Some(OAuthLib.GenerateStateToken(randomBytes))
  {
    if clientId.None? || clientId.value == "" then LoginOutcome(None, storage)
    else
      var state := OAuthLib.GenerateStateToken(randomBytes);
      var url := OAuthLib.OAuth2Endpoint + "?" + Serialize(LoginParams(clientId.value, origin, state));
      LoginOutcome(Some(url), storage[OAuthResponse.OAuthStateKey := state])
  }

  lemma LoginScopesPlain()
    ensures forall k :: 0 <= k < |LoginScopes| ==> '&' !in LoginScopes[k]
  {
    OAuthLib.ScopePlain("userinfo.profile");
    OAuthLib.ScopePlain("userinfo.email");
    OAuthLib.ScopePlain("youtube.readonly");
    OAuthLib.ScopePlain("youtube.upload");
  }

  lemma LoginParamsSerializable(clientId: string, redirectUri: string, state: string)
    requires '&' !in clientId && '&' !in redirectUri && '&' !in state
    ensures forall i :: 0 <= i < |LoginParams(clientId, redirectUri, state)| ==>
              Serializable(LoginParams(clientId, redirectUri, state)[i])
  {
    OAuthLib.ParamNamesPlain();
    LoginScopesPlain();
    OAuthLib.JoinAvoids(LoginScopes, " ", '&');
  }

  lemma LoginParamNamesDistinct(clientId: string, redirectUri: string, state: string)
    ensures var ps := LoginParams(clientId, redirectUri, state);
            && (forall i, j :: 0 <= j < i < |ps| ==> ps[j].name != ps[i].name)
            && (forall i :: 0 <= i < |ps| ==> ps[i].name != "include_granted_scopes")
  {
    var ps := LoginParams(clientId, redirectUri, state);
    // The names differ in length, except `scope` and `state`, which differ in their second letter.
    assert |ps[0].name| == 9 && |ps[1].name| == 12 && |ps[2].name| == 13;
    assert |ps[3].name| == 5 && |ps[4].name| == 5 && |"include_granted_scopes"| == 22;
    assert ps[3].name[1] != ps[4].name[1];
  }

  /** The request the hook sends names the client, the redirect URI, and `response_type=token`. */
  lemma LoginParamsClient(clientId: string, redirectUri: string, state: string)
    ensures var ps := LoginParams(clientId, redirectUri, state);
            && Get(ps, "client_id") == Some(clientId)
            && Get(ps, "redirect_uri") == Some(redirectUri)
            && Get(ps, "response_type") == Some("token")
  {
    var ps := LoginParams(clientId, redirectUri, state);
    LoginParamNamesDistinct(clientId, redirectUri, state);
    GetFirstOccurrence(ps, 0);
    GetFirstOccurrence(ps, 1);
    GetFirstOccurrence(ps, 2);
  }

  /** The request carries the four scopes space-joined and the state, and no `include_granted_scopes`. */
  lemma LoginParamsGrant(clientId: string, redirectUri: string, state: string)
    ensures var ps := LoginParams(clientId, redirectUri, state);
            && Get(ps, "scope") == Some(Join(LoginScopes, " "))
            && Get(ps, "state") == Some(state)
            && Get(ps, "include_granted_scopes") == None
  {
    var ps := LoginParams(clientId, redirectUri, state);
    LoginParamNamesDistinct(clientId, redirectUri, state);
    GetFirstOccurrence(ps, 3);
    GetFirstOccurrence(ps, 4);
  }

  /**
   * With a client id, the browser goes to the endpoint with a query that parses back to the
   * hook's parameters, and the state in that query is the one stored under `oauth_state`,
   * so the callback's comparison succeeds on it.
   */
  lemma LoginUrlCarriesStoredState(clientId: string, origin: string, randomBytes: seq<OAuthLib.byte>, storage: Store)
    requires clientId != "" && '&' !in clientId && '&' !in origin
    ensures var out := InitiateLogin(Some(clientId), origin, randomBytes, storage);
            var state := OAuthLib.GenerateStateToken(randomBytes);
            && out.navigateTo.Some?
            && StartsWith(out.navigateTo.value, OAuthLib.OAuth2Endpoint + "?")
            && Parse(OAuthLib.QueryOf(out.navigateTo.value)) == LoginParams(clientId, origin, state)
            && GetItem(out.storage, OAuthResponse.OAuthStateKey) == Some(state)
            && OAuthResponse.VerifyState(Some(out.storage), state).ok
  {
    var state := OAuthLib.GenerateStateToken(randomBytes);
    var ps := LoginParams(clientId, origin, state);
    OAuthLib.StateTokenPlain(randomBytes);
    LoginParamsSerializable(clientId, origin, state);
    var url := InitiateLogin(Some(clientId), origin, randomBytes, storage).navigateTo.value;
    assert url == (OAuthLib.OAuth2Endpoint + "?") + Serialize(ps);
    assert OAuthLib.QueryOf(url) == Serialize(ps);
    ParseSerialize(ps);
  }
}

=== FILE: oauth_lib.dfy ===
/**
 * The authorization-request side of the OAuth 2.0 implicit grant (section 4.2.1 of
 * RFC 6749) and the `localStorage` access-token store: the hex state token built
 * from 32 random bytes, the authorization URL, the sign-in defaults, and
 * store/get/clear of the token with its expiry.
 */
module OAuthLib {
  import opened Wrappers
  import opened Text
  import opened UrlParams
  import opened WebStorage
  import OAuthResponse

  const OAuth2Endpoint: string := "https://accounts.google.com/o/oauth2/v2/auth"

  /** The common prefix of Google's OAuth scope URIs. */
  const ScopeBase: string := "https://www.googleapis.com/auth/"

  const ScopeReadonly: string := ScopeBase + "youtube.readonly"
  const ScopeUpload: string := ScopeBase + "youtube.upload"

  lemma ScopeBasePlain()
    ensures '&' !in ScopeBase
  {
    assert ScopeBase == "https://" + "www.googleapis" + ".com/auth/";
    assert '&' !in "https://" by {}
    assert '&' !in "www.googleapis" by {}
    assert '&' !in ".com/auth/" by {}
  }

  /** A scope URI whose last segment has no `&` has none at all. */
  lemma ScopePlain(segment: string)
    requires '&' !in segment
    ensures '&' !in ScopeBase + segment
  {
    ScopeBasePlain();
  }

  /** Number of random bytes behind one state token. */
  const StateTokenBytes: nat := 32

  newtype byte = x: int | 0 <= x < 256

  /* ----- State token ----- */

  /** `s.padStart(n, c)`. */
  function PadStart(s: string, n: nat, c: char): (r: string)
    ensures |r| == if |s| >= n then |s| else n
  {
    if |s| >= n then s else seq(n - |s|, _ => c) + s
  }

  /** `byte.toString(16).padStart(2, '0')`. */
  function ByteToHex(b: byte): string {
    PadStart(ToRadixString(b as nat, 16), 2, '0')
  }

  /** The two characters a byte becomes are its high and low nibble, as lower-case hex digits. */
  lemma ByteToHexDigits(b: byte)
    ensures ByteToHex(b) == [DigitChar(b as nat / 16), DigitChar(b as nat % 16)]
  {
    var n := b as nat;
    if n >= 16 {
      assert ToRadixString(n / 16, 16) == [DigitChar(n / 16)];
    } else {
      assert ToRadixString(n, 16) == [DigitChar(n)];
      assert DigitChar(0) == '0';
    }
  }

  predicate IsLowerHex(c: char) {
    '0' <= c <= '9' || 'a' <= c <= 'f'
  }

  /** `Array.from(bytes, byteToHex).join('')`: the state token for the given random bytes. */
  function GenerateStateToken(bytes: seq<byte>): (t: string)
    ensures |t| == 2 * |bytes|
    ensures forall k :: 0 <= k < |t| ==> IsLowerHex(t[k])
  {
    if |bytes| == 0 then ""
    else
      ByteToHexDigits(bytes[0]);
      ByteToHex(bytes[0]) + GenerateStateToken(bytes[1..])
  }

  /** Reading a hex string back two characters at a time. */
  function HexDecode(t: string): seq<int>
    decreases |t|
  {
    if |t| < 2 then [] else [DigitValue(t[0]) * 16 + DigitValue(t[1])] + HexDecode(t[2..])
  }

  /** Decoding a state token gives back exactly the bytes it was generated from. */
  lemma {:induction false} StateTokenRoundTrip(bytes: seq<byte>)
    ensures HexDecode(GenerateStateToken(bytes)) == seq(|bytes|, i requires 0 <= i < |bytes| => bytes[i] as int)
  {
    if |bytes| > 0 {
      var t := GenerateStateToken(bytes);
      ByteToHexDigits(bytes[0]);
      var n := bytes[0] as nat;
      assert t[..2] == ByteToHex(bytes[0]);
      assert t[2..] == GenerateStateToken(bytes[1..]);
      assert DigitValue(t[0]) * 16 + DigitValue(t[1]) == n;
      StateTokenRoundTrip(bytes[1..]);
    }
  }

  /** Different random bytes give different tokens. */
  lemma StateTokenInjective(a: seq<byte>, b: seq<byte>)
    requires GenerateStateToken(a) == GenerateStateToken(b)
    ensures a == b
  {
    StateTokenRoundTrip(a);
    StateTokenRoundTrip(b);
    var da := HexDecode(GenerateStateToken(a));
    assert |a| == |da| == |b|;
    forall i | 0 <= i < |a|
      ensures a[i] == b[i]
    {
      assert da[i] == a[i] as int == b[i] as int;
    }
  }

  /** Thirty-two random bytes make a 64-character lower-case hex token. */
  lemma StateTokenShape(bytes: seq<byte>)
    requires |bytes| == StateTokenBytes
    ensures var t := GenerateStateToken(bytes);
            |t| == 64 && forall k :: 0 <= k < |t| ==> IsLowerHex(t[k])
  {
  }

  /* ----- Authorization request ----- */

  /** `OAuth2Config`; unset optional members are None. */
  datatype OAuth2Config = OAuth2Config(
    clientId: string,
    redirectUri: string,
    scopes: seq<string>,
    state: Option<string>,
    includeGrantedScopes: Option<bool>)

  /** The parameter list of the authorization request, in the order the code builds it. */
  function AuthParams(config: OAuth2Config, state: string): seq<Pair> {
    [ Pair("client_id", config.clientId),
      Pair("redirect_uri", config.redirectUri),
      Pair("response_type", "token"),
      Pair("scope", Join(config.scopes, " ")),
      Pair("state", state),
      Pair("include_granted_scopes",
           if config.includeGrantedScopes == Some(true) then "true" else "false") ]
  }

  /**
   * The state to send: the configured one when it is given and non-empty, otherwise a fresh
   * token made from the random bytes (`config.state || generateStateToken()`).
   */
  function ChooseState(config: OAuth2Config, randomBytes: seq<byte>): string {
    if config.state.Some? && config.state.value != "" then config.state.value
    else GenerateStateToken(randomBytes)
  }

  /** The URL to send the browser to, and `sessionStorage` afterwards (None when there is no `window`). */
  datatype AuthRequest = AuthRequest(url: string, storage: Option<Store>)

  /** `buildAuthUrl`: the state is stored under `oauth_state` and sent as the `state` parameter. */
  function BuildAuthUrl(config: OAuth2Config, randomBytes: seq<byte>, storage: Option<Store>): (r: AuthRequest)
    ensures StartsWith(r.url, OAuth2Endpoint + "?")
    ensures r.storage.Some? <==> storage.Some?
    ensures storage.Some? ==> GetItem(r.storage.value, OAuthResponse.OAuthStateKey) == Some(ChooseState(config, randomBytes))
    ensures storage.Some? ==> forall k :: k != OAuthResponse.OAuthStateKey ==> GetItem(r.storage.value, k) == GetItem(storage.value, k)
  {
    var state := ChooseState(config, randomBytes);
    var storage' := if storage.Some? then Some(storage.value[OAuthResponse.OAuthStateKey := state]) else None;
    AuthRequest(OAuth2Endpoint + "?" + Serialize(AuthParams(config, state)), storage')
  }

  /** The query of a URL the builder produced: what follows the endpoint and `?`. */
  function QueryOf(url: string): string {
    if |url| > |OAuth2Endpoint| then url[|OAuth2Endpoint| + 1..] else ""
  }

  /** The configuration values contain no `&`, so they survive unescaped serialisation. */
  predicate PlainConfig(config: OAuth2Config, state: string) {
    && '&' !in config.clientId && '&' !in config.redirectUri && '&' !in state
    && forall k :: 0 <= k < |config.scopes| ==> '&' !in config.scopes[k]
  }

  lemma JoinAvoids(parts: seq<string>, sep: string, c: char)
    requires c !in sep
    requires forall k :: 0 <= k < |parts| ==> c !in parts[k]
    ensures c !in Join(parts, sep)
  {
    if |parts| > 1 {
      JoinAvoids(parts[1..], sep, c);
    }
  }

  /** A parameter name that needs no escaping. */
  predicate PlainName(n: string) {
    '&' !in n && '=' !in n && '?' !in n
  }

  /** Every parameter name either authorization request uses needs no escaping. */
  lemma ParamNamesPlain()
    ensures PlainName("client_id") && PlainName("redirect_uri")
    ensures PlainName("response_type") && PlainName("scope") && PlainName("state")
    ensures PlainName("include_granted_scopes")
  {
    assert PlainName("client_id");
    assert PlainName("redirect_uri");
    assert PlainName("response_type");
    assert PlainName("scope");
    assert PlainName("state");
  }

  /** Every parameter of a plain configuration survives serialisation. */
  lemma AuthParamsSerializable(config: OAuth2Config, state: string)
    requires PlainConfig(config, state)
    ensures forall i :: 0 <= i < |AuthParams(config, state)| ==> Serializable(AuthParams(config, state)[i])
  {
    ParamNamesPlain();
    JoinAvoids(config.scopes, " ", '&');
  }

  /**
   * The URL is the fixed endpoint and `?` followed by the query, and parsing that query
   * gives back exactly the parameter list, with the chosen state.
   */
  lemma AuthUrlCarriesParams(config: OAuth2Config, randomBytes: seq<byte>, storage: Option<Store>)
    requires PlainConfig(config, ChooseState(config, randomBytes))
    ensures var url := BuildAuthUrl(config, randomBytes, storage).url;
            && StartsWith(url, OAuth2Endpoint + "?")
            && Parse(QueryOf(url)) == AuthParams(config, ChooseState(config, randomBytes))
  {
    var ps := AuthParams(config, ChooseState(config, randomBytes));
    AuthParamsSerializable(config, ChooseState(config, randomBytes));
    var url := BuildAuthUrl(config, randomBytes, storage).url;
    assert url == (OAuth2Endpoint + "?") + Serialize(ps);
    assert QueryOf(url) == Serialize(ps);
    ParseSerialize(ps);
  }

  lemma AuthParamNamesDistinct(config: OAuth2Config, state: string)
    ensures var ps := AuthParams(config, state);
            forall i, j :: 0 <= j < i < |ps| ==> ps[j].name != ps[i].name
  {
    var ps := AuthParams(config, state);
    // The names differ in length, except `scope` and `state`, which differ in their second letter.
    assert |ps[0].name| == 9 && |ps[1].name| == 12 && |ps[2].name| == 13;
    assert |ps[3].name| == 5 && |ps[4].name| == 5 && |ps[5].name| == 22;
    assert ps[3].name[1] != ps[4].name[1];
  }

  /** Reading the parameters by name: `client_id`, `redirect_uri` and `response_type=token`. */
  lemma AuthParamsClient(config: OAuth2Config, state: string)
    ensures var ps := AuthParams(config, state);
            && Get(ps, "client_id") == Some(config.clientId)
            && Get(ps, "redirect_uri") == Some(config.redirectUri)
            && Get(ps, "response_type") == Some("token")
  {
    var ps := AuthParams(config, state);
    AuthParamNamesDistinct(config, state);
    GetFirstOccurrence(ps, 0);
    GetFirstOccurrence(ps, 1);
    GetFirstOccurrence(ps, 2);
  }

  /**
   * Reading the parameters by name: the space-joined scopes, the state, and
   * `include_granted_scopes`, which is `true` exactly when the flag is set.
   */
  lemma AuthParamsGrant(config: OAuth2Config, state: string)
    ensures var ps := AuthParams(config, state);
            && Get(ps, "scope") == Some(Join(config.scopes, " "))
            && Get(ps, "state") == Some(state)
            && (Get(ps, "include_granted_scopes") == Some("true") <==> config.includeGrantedScopes == Some(true))
  {
    var ps := AuthParams(config, state);
    AuthParamNamesDistinct(config, state);
    GetFirstOccurrence(ps, 3);
    GetFirstOccurrence(ps, 4);
    GetFirstOccurrence(ps, 5);
  }

  /**
   * The state is `config.state` when that is non-empty and otherwise the token made from the
   * random bytes; with a `window` the same value is stored under `oauth_state`, without one nothing is stored.
   */
  lemma BuildAuthUrlStoresState(config: OAuth2Config, randomBytes: seq<byte>, storage: Option<Store>)
    ensures var req := BuildAuthUrl(config, randomBytes, storage);
            && (config.state.Some? && config.state.value != "" ==> ChooseState(config, randomBytes) == config.state.value)
            && ((config.state.None? || config.state.value == "") ==> ChooseState(config, randomBytes) == GenerateStateToken(randomBytes))
            && (storage.Some? <==> req.storage.Some?)
            && (storage.Some? ==> req.storage.value == storage.value[OAuthResponse.OAuthStateKey := ChooseState(config, randomBytes)])
  {
  }

  /** A state token has no `&` in it. */
  lemma StateTokenPlain(bytes: seq<byte>)
    ensures '&' !in GenerateStateToken(bytes)
  {
  }

  /** The state sent in the URL is the one kept in `sessionStorage` for the callback to compare against. */
  lemma UrlStateIsStoredState(config: OAuth2Config, randomBytes: seq<byte>, st: Store)
    requires PlainConfig(config, ChooseState(config, randomBytes))
    ensures var req := BuildAuthUrl(config, randomBytes, Some(st));
            && req.storage.Some?
            && Get(Parse(QueryOf(req.url)), "state") == GetItem(req.storage.value, OAuthResponse.OAuthStateKey)
  {
    AuthUrlCarriesParams(config, randomBytes, Some(st));
    AuthParamsGrant(config, ChooseState(config, randomBytes));
  }

  /** `initiateOAuth2SignIn`: the page to navigate to, and `sessionStorage` afterwards. */
  function InitiateOAuth2SignIn(clientId: string, scopes: Option<seq<string>>, origin: string,
                                randomBytes: seq<byte>, storage: Store): (r: AuthRequest)
    ensures StartsWith(r.url, OAuth2Endpoint + "?")
    ensures r.storage.Some? && GetItem(r.storage.value, OAuthResponse.OAuthStateKey) == Some(GenerateStateToken(randomBytes))
  {
    BuildAuthUrl(SignInConfig(clientId, scopes, origin), randomBytes, Some(storage))
  }

  /** The configuration `initiateOAuth2SignIn` passes to the builder. */
  function SignInConfig(clientId: string, scopes: Option<seq<string>>, origin: string): OAuth2Config {
    OAuth2Config(clientId, origin, scopes.GetOr([ScopeReadonly]), None, Some(true))
  }

  /**
   * Sign-in defaults: without scopes only the read-only scope is requested; the redirect URI is
   * the page's origin; granted scopes are always included; the state is a fresh token, and stored.
   */
  lemma InitiateDefaults(clientId: string, scopes: Option<seq<string>>, origin: string,
                         randomBytes: seq<byte>, storage: Store)
    requires '&' !in clientId && '&' !in origin
    requires scopes.Some? ==> forall k :: 0 <= k < |scopes.value| ==> '&' !in scopes.value[k]
    ensures var req := InitiateOAuth2SignIn(clientId, scopes, origin, randomBytes, storage);
            var ps := AuthParams(SignInConfig(clientId, scopes, origin), GenerateStateToken(randomBytes));
            && Parse(QueryOf(req.url)) == ps
            && Get(ps, "client_id") == Some(clientId)
            && Get(ps, "redirect_uri") == Some(origin)
            && Get(ps, "scope") == Some(if scopes.Some? then Join(scopes.value, " ") else ScopeReadonly)
            && Get(ps, "include_granted_scopes") == Some("true")
            && Get(ps, "state") == Some(GenerateStateToken(randomBytes))
            && req.storage == Some(storage[OAuthResponse.OAuthStateKey := GenerateStateToken(randomBytes)])
  {
    var config := SignInConfig(clientId, scopes, origin);
    assert '&' !in ScopeReadonly by {
      ScopePlain("youtube.readonly");
    }
    StateTokenPlain(randomBytes);
    AuthUrlCarriesParams(config, randomBytes, Some(storage));
    AuthParamsClient(config, GenerateStateToken(randomBytes));
    AuthParamsGrant(config, GenerateStateToken(randomBytes));
  }

  /* ----- localStorage token store ----- */

  const AccessTokenKey: string := "youtube_access_token"
  const ExpiresAtKey: string := "youtube_token_expires_at"

  /** `storeAccessToken`: token and absolute expiry (`now + expiresIn*1000`, as a decimal string). */
  function StoreAccessToken(local: Option<Store>, now: int, token: string, expiresIn: int): (r: Option<Store>)
    ensures r.Some? <==> local.Some?
    ensures r.Some? ==> GetItem(r.value, AccessTokenKey) == Some(token)
    ensures r.Some? ==> ExpiresAtKey in r.value && ParseInt(r.value[ExpiresAtKey]) == Num(now + expiresIn * 1000)
    ensures r.Some? ==> forall k :: k != AccessTokenKey && k != ExpiresAtKey ==> GetItem(r.value, k) == GetItem(local.value, k)
  {
    match local
    case None => None
    case Some(st) =>
      var expiresAt := now + expiresIn * 1000;
      ParseIntOfIntToString(expiresAt);
      assert AccessTokenKey != ExpiresAtKey by { assert |AccessTokenKey| != |ExpiresAtKey|; }
      Some(st[AccessTokenKey := token][ExpiresAtKey := IntToString(expiresAt)])
  }

  /** `clearAccessToken`: both keys removed, everything else kept. */
  function ClearAccessToken(local: Option<Store>): (r: Option<Store>)
    ensures r.Some? <==> local.Some?
    ensures r.Some? ==> AccessTokenKey !in r.value && ExpiresAtKey !in r.value
    ensures r.Some? ==> forall k :: k != AccessTokenKey && k != ExpiresAtKey ==> GetItem(r.value, k) == GetItem(local.value, k)
  {
    match local
    case None => None
    case Some(st) => Some(st - {AccessTokenKey, ExpiresAtKey})
  }

  /** What `getAccessToken` returns, and `localStorage` afterwards. */
  datatype TokenRead = TokenRead(token: Option<string>, local: Option<Store>)

  /**
   * `getAccessToken`: null when either key is missing or empty; null and both keys removed
   * once `now >= parseInt(expiresAt)`; the token otherwise. A NaN expiry never compares as
   * reached, so such a token never expires.
   */
  function GetAccessToken(local: Option<Store>, now: int): (r: TokenRead)
    ensures r.token.Some? ==> r.local == local && r.token.value != ""
  {
    match local
    case None => TokenRead(None, None)
    case Some(st) =>
      var token := GetItem(st, AccessTokenKey);
      var expiresAt := GetItem(st, ExpiresAtKey);
      if !IsTruthy(token) || !IsTruthy(expiresAt) then TokenRead(None, local)
      else
        var limit := ParseInt(expiresAt.value);
        if limit.Num? && now >= limit.n then TokenRead(None, ClearAccessToken(local))
        else TokenRead(token, local)
  }

  /** `isAuthenticated`: whether `getAccessToken` gives a token (which it may clear as a side effect). */
  function IsAuthenticated(local: Option<Store>, now: int): (r: (bool, Option<Store>))
    ensures r.0 <==> GetAccessToken(local, now).token.Some?
    ensures r.1 == GetAccessToken(local, now).local
    ensures r.0 ==> local.Some? && AccessTokenKey in local.value && local.value[AccessTokenKey] != ""
  {
    var read := GetAccessToken(local, now);
    (read.token.Some?, read.local)
  }

  /** Round trip: a non-empty token stored at `now0` for `e` seconds is returned exactly while `t < now0 + e*1000`. */
  lemma StoreThenGetToken(st: Store, now0: int, t: int, token: string, e: int)
    requires token != ""
    ensures var read := GetAccessToken(StoreAccessToken(Some(st), now0, token, e), t);
            && (read.token == Some(token) <==> t < now0 + e * 1000)
            && (read.token.None? ==> read.local.Some? && AccessTokenKey !in read.local.value
                                     && ExpiresAtKey !in read.local.value)
  {
    var x := now0 + e * 1000;
    var st' := st[AccessTokenKey := token][ExpiresAtKey := IntToString(x)];
    assert StoreAccessToken(Some(st), now0, token, e) == Some(st');
    assert AccessTokenKey != ExpiresAtKey by { assert |AccessTokenKey| != |ExpiresAtKey|; }
    assert GetItem(st', AccessTokenKey) == Some(token);
    assert GetItem(st', ExpiresAtKey) == Some(IntToString(x));
    ParseIntOfIntToString(x);
  }

  /** With either key missing the result is null and the storage is left as it was. */
  lemma GetTokenMissingKey(st: Store, now: int)
    requires AccessTokenKey !in st || ExpiresAtKey !in st
    ensures GetAccessToken(Some(st), now) == TokenRead(None, Some(st))
  {
  }

  /** An expiry that does not parse as a number never expires the token. */
  lemma GetTokenUnparsableExpiry(st: Store, now: int)
    requires AccessTokenKey in st && st[AccessTokenKey] != ""
    requires ExpiresAtKey in st && st[ExpiresAtKey] != "" && ParseInt(st[ExpiresAtKey]) == NaN
    ensures GetAccessToken(Some(st), now) == TokenRead(Some(st[AccessTokenKey]), Some(st))
  {
  }

  /** After a clear nobody is authenticated, and without a `window` nobody ever is. */
  lemma ClearThenNotAuthenticated(local: Option<Store>, now: int)
    ensures !IsAuthenticated(ClearAccessToken(local), now).0
    ensures !IsAuthenticated(None, now).0
  {
  }
}

=== FILE: oauth_response.dfy ===
/**
 * The callback side of the OAuth 2.0 implicit grant (section 4.2 of RFC 6749):
 * reading the authorization response out of the URL fragment (sections 4.2.2 and
 * 4.2.2.1) and the read-once check of the `state` value against the one kept in
 * `sessionStorage` (the CSRF defence of section 10.12). The same two functions
 * appear twice in the application with identical bodies; they are modelled once.
 */
module OAuthResponse {
  import opened Wrappers
  import opened Text
  import opened UrlParams
  import opened WebStorage

  /** The `sessionStorage` key that holds the pending state value. */
  const OAuthStateKey: string := "oauth_state"

  /** Fields of an authorization response; a missing or empty parameter is None. */
  datatype OAuth2Response = OAuth2Response(
    accessToken: Option<string>,
    tokenType: Option<string>,
    expiresIn: ParsedInt,
    scope: Option<string>,
    state: Option<string>,
    error: Option<string>,
    errorDescription: Option<string>)

  /** The record returned when there is no `window`: every field absent. */
  const NoResponse: OAuth2Response := OAuth2Response(None, None, Absent, None, None, None, None)

  /** `params.get(name) || undefined`: an empty value counts as absent. */
  function Field(ps: seq<Pair>, name: string): (r: Option<string>)
    ensures r.Some? ==> r.value != "" && Get(ps, name) == r
    ensures r.None? <==> !IsTruthy(Get(ps, name))
  {
    var v := Get(ps, name);
    if v.Some? && v.value != "" then v else None
  }

  /** `params.get('expires_in') ? parseInt(params.get('expires_in')) : undefined`. */
  function ExpiresIn(ps: seq<Pair>): (r: ParsedInt)
    ensures r == Absent <==> !IsTruthy(Get(ps, "expires_in"))
    ensures r != Absent ==> r == ParseInt(Get(ps, "expires_in").value)
  {
    var v := Get(ps, "expires_in");
    if v.Some? && v.value != "" then ParseInt(v.value) else Absent
  }

  /** `window.location.hash.substring(1)`: the fragment without its leading `#`. */
  function FragmentBody(hash: string): string {
    if |hash| >= 1 then hash[1..] else ""
  }

  /** `parseOAuth2Response`; `hash` is `window.location.hash`, or None when there is no `window`. */
  function ParseOAuth2Response(hash: Option<string>): (r: OAuth2Response)
    ensures hash.None? ==> r == NoResponse
    ensures r.accessToken.Some? ==> r.accessToken.value != ""
    ensures r.state.Some? ==> r.state.value != ""
    ensures r.error.Some? ==> r.error.value != ""
  {
    match hash
    case None => NoResponse
    case Some(h) =>
      var ps := Parse(FragmentBody(h));
      OAuth2Response(
        Field(ps, "access_token"),
        Field(ps, "token_type"),
        ExpiresIn(ps),
        Field(ps, "scope"),
        Field(ps, "state"),
        Field(ps, "error"),
        Field(ps, "error_description"))
  }

  /** The answer of `verifyState` and the `sessionStorage` it leaves (None when there is no `window`). */
  datatype Verification = Verification(ok: bool, storage: Option<Store>)

  /** `verifyState`: reads the pending state, removes it, and compares it with the received value. */
  function VerifyState(storage: Option<Store>, received: string): (v: Verification)
    ensures storage.None? ==> v == Verification(false, None)
    ensures storage.Some? ==> v.storage == Some(storage.value - {OAuthStateKey})
    ensures storage.Some? ==> (v.ok <==> OAuthStateKey in storage.value && storage.value[OAuthStateKey] == received)
  {
    match storage
    case None => Verification(false, None)
    case Some(st) =>
      var stored := GetItem(st, OAuthStateKey);
      Verification(stored == Some(received), Some(st - {OAuthStateKey}))
  }

  /* ----- Properties ----- */

  /** With no `window` the parser returns the all-absent record. */
  lemma ParseWithoutWindow()
    ensures ParseOAuth2Response(None) == NoResponse
  {
  }

  /**
   * For a fragment `#` followed by serialised pairs, each field is the value of the first
   * pair with its name, absent when there is none or that value is empty; `expires_in`
   * goes through `parseInt`, so it may come out NaN.
   */
  lemma ParseReadsFirstOccurrence(ps: seq<Pair>)
    requires forall i :: 0 <= i < |ps| ==> Serializable(ps[i])
    ensures var r := ParseOAuth2Response(Some("#" + Serialize(ps)));
            && r.accessToken == Field(ps, "access_token")
            && r.tokenType == Field(ps, "token_type")
            && r.scope == Field(ps, "scope")
            && r.state == Field(ps, "state")
            && r.error == Field(ps, "error")
            && r.errorDescription == Field(ps, "error_description")
            && (r.expiresIn == Absent <==> !IsTruthy(Get(ps, "expires_in")))
            && (r.expiresIn != Absent ==> r.expiresIn == ParseInt(Get(ps, "expires_in").value))
  {
    assert FragmentBody("#" + Serialize(ps)) == Serialize(ps);
    ParseSerialize(ps);
  }

  /** Verification passes exactly when the stored value equals the received one; with nothing stored it always fails. */
  lemma VerifyComparesStored(st: Store, received: string)
    ensures VerifyState(Some(st), received).ok <==> GetItem(st, OAuthStateKey) == Some(received)
    ensures OAuthStateKey !in st ==> !VerifyState(Some(st), received).ok
  {
  }

  /** Read-once: whatever the first call saw, a second call fails for every input. */
  lemma VerifyIsReadOnce(storage: Option<Store>, first: string, second: string)
    ensures !VerifyState(VerifyState(storage, first).storage, second).ok
  {
  }

  /** A stored token verifies once and never again, and nothing else in the storage is touched. */
  lemma PutThenTake(st: Store, token: string)
    ensures var v := VerifyState(Some(st[OAuthStateKey := token]), token);
            && v.ok
            && v.storage == Some(st - {OAuthStateKey})
            && !VerifyState(v.storage, token).ok
  {
    assert st[OAuthStateKey := token] - {OAuthStateKey} == st - {OAuthStateKey};
  }
}

=== FILE: route_proxy.dfy ===
/**
 * The route guard run before each matched request: signed-in users are sent away from
 * the sign-in pages, signed-out users are sent from `/app` pages to `/app/login`, and
 * every other request passes. Paths are tested by substring, not by prefix; "signed in"
 * means a non-empty `auth-token` cookie.
 */
module RouteProxy {
  import opened Text
  import AuthActions

  /** The request's cookies, by name (value only). */
  type Cookies = map<string, string>

  datatype ProxyResult = Next | Redirect(target: string)

  const LoginCookieName: string := "auth-token"
  const LoginRoute: string := "/login"
  const CreateAccountRoute: string := "/create-account"
  const HomeRoute: string := "/"
  const AppSegment: string := "/app"
  const AppLoginRoute: string := "/app/login"

  /** The path contains `/login` or `/create-account` anywhere (`publicAuthRoutes.some(r => pathname.includes(r))`). */
  predicate IsAuthPage(pathname: string) {
    Contains(pathname, LoginRoute) || Contains(pathname, CreateAccountRoute)
  }

  /** The `auth-token` cookie is present and non-empty (`Boolean(req.cookies.get('auth-token')?.value)`). */
  predicate IsLoggedIn(cookies: Cookies) {
    LoginCookieName in cookies && cookies[LoginCookieName] != ""
  }

  /** `proxy`; redirect targets are the paths the new URL is built from. */
  function Proxy(pathname: string, cookies: Cookies): (r: ProxyResult)
    ensures r.Redirect? ==> r.target == HomeRoute || r.target == AppLoginRoute
    ensures r == Redirect(HomeRoute) ==> IsLoggedIn(cookies) && IsAuthPage(pathname)
    ensures r == Redirect(AppLoginRoute) ==> !IsLoggedIn(cookies) && Contains(pathname, AppSegment)
  {
    if IsAuthPage(pathname) && IsLoggedIn(cookies) then Redirect(HomeRoute)
    else if Contains(pathname, AppSegment) && !IsAuthPage(pathname) && !IsLoggedIn(cookies) then Redirect(AppLoginRoute)
    else Next
  }

  /* ----- Properties ----- */

  /**
   * The complete decision table: home exactly for a signed-in request to an auth page, the
   * app sign-in page exactly for a signed-out request to a non-auth `/app` page, and Next
   * for everything else; the two redirects never both apply.
   */
  lemma ProxyDecision(pathname: string, cookies: Cookies)
    ensures Proxy(pathname, cookies) == Redirect(HomeRoute) <==> IsAuthPage(pathname) && IsLoggedIn(cookies)
    ensures Proxy(pathname, cookies) == Redirect(AppLoginRoute) <==>
              Contains(pathname, AppSegment) && !IsAuthPage(pathname) && !IsLoggedIn(cookies)
    ensures Proxy(pathname, cookies) == Next <==>
              !(IsAuthPage(pathname) && IsLoggedIn(cookies))
              && !(Contains(pathname, AppSegment) && !IsAuthPage(pathname) && !IsLoggedIn(cookies))
  {
    assert HomeRoute != AppLoginRoute by { assert |HomeRoute| != |AppLoginRoute|; }
  }

  /** Signed in means a present, non-empty `auth-token` cookie and nothing else. */
  lemma LoggedInIsAuthToken(cookies: Cookies, name: string, value: string)
    requires name != LoginCookieName
    ensures IsLoggedIn(cookies[name := value]) <==> IsLoggedIn(cookies)
    ensures IsLoggedIn(cookies[LoginCookieName := value]) <==> value != ""
    ensures !IsLoggedIn(cookies - {LoginCookieName})
  {
  }

  /** The session cookie the sign-in flow writes is not the one the guard reads: it changes no decision. */
  lemma SessionCookieIgnored(pathname: string, cookies: Cookies, value: string)
    ensures Proxy(pathname, cookies[AuthActions.AuthCookieName := value]) == Proxy(pathname, cookies)
  {
    assert AuthActions.AuthCookieName != LoginCookieName by {
      assert |AuthActions.AuthCookieName| != |LoginCookieName|;
    }
    LoggedInIsAuthToken(cookies, AuthActions.AuthCookieName, value);
  }

  /** A path shorter than the searched text cannot contain it. */
  lemma NotContainsLonger(s: string, sub: string)
    requires |s| < |sub|
    ensures !Contains(s, sub)
  {
    ContainsIffOccurs(s, sub);
  }

  /** No redirect loop: following either redirect with the same cookies is let through. */
  lemma NoRedirectLoop(pathname: string, cookies: Cookies)
    requires Proxy(pathname, cookies).Redirect?
    ensures Proxy(Proxy(pathname, cookies).target, cookies) == Next
  {
    NotContainsLonger(HomeRoute, LoginRoute);
    NotContainsLonger(HomeRoute, CreateAccountRoute);
    NotContainsLonger(HomeRoute, AppSegment);
    assert Contains(AppLoginRoute, LoginRoute) by {
      assert OccursAt(AppLoginRoute, LoginRoute, 4);
      ContainsIffOccurs(AppLoginRoute, LoginRoute);
    }
  }
}

=== FILE: search_history.dfy ===
/**
 * The search-history reducer: a most-recently-used list of at most ten queries.
 * Adding a query trims it, ignores it when blank, removes any earlier copy and
 * puts it first; removing filters out exact copies; loading replaces the list
 * as given; clearing empties it.
 */
module SearchHistory {
  import opened Text

  const MaxHistoryItems: nat := 10

  datatype SearchHistoryState = SearchHistoryState(history: seq<string>)

  datatype SearchHistoryAction =
    | AddSearch(query: string)
    | RemoveSearch(query: string)
    | LoadHistory(items: seq<string>)
    | ClearHistory

  /** `history.filter(item => item !== x)`: every copy of `x` removed, all else kept. */
  function Without(h: seq<string>, x: string): (r: seq<string>)
    ensures forall y :: y in r <==> y in h && y != x
    ensures x !in h ==> r == h
    ensures |r| <= |h|
  {
    if |h| == 0 then []
    else
      assert h == [h[0]] + h[1..];
      (if h[0] == x then [] else [h[0]]) + Without(h[1..], x)
  }

  /** Filtering keeps every other entry as many times as it occurred and drops every copy of `x`. */
  lemma {:induction false} WithoutCounts(h: seq<string>, x: string)
    ensures multiset(Without(h, x)) == multiset(h)[x := 0]
  {
    if |h| > 0 {
      WithoutCounts(h[1..], x);
      assert h == [h[0]] + h[1..];
      assert multiset(h) == multiset{h[0]} + multiset(h[1..]);
    }
  }

  /** `s.slice(0, n)`: the first `n` elements, or all of `s` when it is shorter. */
  function Take(s: seq<string>, n: nat): (r: seq<string>)
    ensures |r| == if |s| <= n then |s| else n
    ensures r == s[..|r|]
  {
    if |s| <= n then s else s[..n]
  }

  /** The list an ADD with the (already trimmed, non-blank) query `t` produces. */
  function MoveToFront(h: seq<string>, t: string): seq<string> {
    Take([t] + Without(h, t), MaxHistoryItems)
  }

  /** `searchHistoryReducer`. */
  function Reduce(st: SearchHistoryState, action: SearchHistoryAction): (r: SearchHistoryState)
    ensures action.AddSearch? && Trim(action.query) == "" ==> r == st
    ensures action.AddSearch? && Trim(action.query) != "" ==>
              1 <= |r.history| <= MaxHistoryItems && r.history[0] == Trim(action.query)
    ensures action.RemoveSearch? ==> forall y :: y in r.history <==> y in st.history && y != action.query
    ensures action.LoadHistory? ==> r.history == action.items
    ensures action.ClearHistory? ==> r.history == []
  {
    match action
    case AddSearch(q) =>
      var query := Trim(q);
      if query == "" then st
      else SearchHistoryState(MoveToFront(st.history, query))
    case RemoveSearch(x) => SearchHistoryState(Without(st.history, x))
    case LoadHistory(items) => SearchHistoryState(items)
    case ClearHistory => SearchHistoryState([])
  }

  /** No entry occurs twice. */
  predicate NoDuplicates(h: seq<string>) {
    forall y :: y in h ==> multiset(h)[y] <= 1
  }

  /** The history the provider keeps when every change comes from `addSearch`, `removeSearch` or `clearHistory`. */
  predicate Valid(st: SearchHistoryState) {
    |st.history| <= MaxHistoryItems && NoDuplicates(st.history)
  }

  /* ----- Properties ----- */

  /** A blank query (empty after trimming) leaves the history as it was. */
  lemma AddBlankIsNoOp(st: SearchHistoryState, q: string)
    requires Trim(q) == ""
    ensures Reduce(st, AddSearch(q)) == st
  {
  }

  lemma MultisetOfPrefix(s: seq<string>, n: nat)
    requires n <= |s|
    ensures multiset(s[..n]) <= multiset(s)
  {
    assert s == s[..n] + s[n..];
  }

  /** Facts about `MoveToFront` that the ADD lemmas below lift to the reducer. */
  lemma MoveToFrontShape(h: seq<string>, t: string)
    ensures var r := MoveToFront(h, t);
            var rest := Without(h, t);
            && |r| >= 1 && r[0] == t
            && |r| == (if 1 + |rest| <= MaxHistoryItems then 1 + |rest| else MaxHistoryItems)
            && r[1..] == rest[..|r| - 1]
            && r == [t] + r[1..]
            && multiset(r[1..]) <= multiset(rest)
            && t !in r[1..]
  {
    var rest := Without(h, t);
    var full := [t] + rest;
    var r := MoveToFront(h, t);
    assert r == full[..|r|];
    assert r[1..] == rest[..|r| - 1] by {
      assert full[1..] == rest;
    }
    MultisetOfPrefix(rest, |r| - 1);
    assert t !in r[1..] by {
      assert multiset(rest)[t] == 0;
    }
  }

  lemma MoveToFrontIdempotent(h: seq<string>, t: string)
    ensures MoveToFront(MoveToFront(h, t), t) == MoveToFront(h, t)
  {
    var r := MoveToFront(h, t);
    MoveToFrontShape(h, t);
    assert Without(r, t) == r[1..] by {
      assert Without([t] + r[1..], t) == Without(r[1..], t);
    }
  }

  lemma MoveToFrontValid(h: seq<string>, t: string)
    requires NoDuplicates(h)
    ensures NoDuplicates(MoveToFront(h, t))
  {
    var r := MoveToFront(h, t);
    var rest := Without(h, t);
    MoveToFrontShape(h, t);
    WithoutCounts(h, t);
    assert multiset(r) == multiset{t} + multiset(r[1..]) by {
      assert r == [t] + r[1..];
    }
    forall y | y in r
      ensures multiset(r)[y] <= 1
    {
      if y != t {
        assert multiset(r)[y] == multiset(r[1..])[y];
        assert multiset(rest)[y] == multiset(h)[y];
        if y !in h {
          assert multiset(h)[y] == 0;
        }
      }
    }
  }

  /**
   * Adding a non-blank query puts its trimmed form first, exactly once, followed by
   * the earlier entries other than it, in their old order, cut so that at most ten remain.
   */
  lemma AddPutsQueryFirst(st: SearchHistoryState, q: string)
    requires Trim(q) != ""
    ensures var h := Reduce(st, AddSearch(q)).history;
            var rest := Without(st.history, Trim(q));
            && |h| >= 1 && h[0] == Trim(q)
            && |h| <= MaxHistoryItems
            && multiset(h)[Trim(q)] == 1
            && |h| == (if 1 + |rest| <= MaxHistoryItems then 1 + |rest| else MaxHistoryItems)
            && h[1..] == rest[..|h| - 1]
  {
    var t := Trim(q);
    var h := MoveToFront(st.history, t);
    assert Reduce(st, AddSearch(q)).history == h;
    MoveToFrontShape(st.history, t);
    assert multiset(h)[t] == 1 by {
      assert multiset(h) == multiset{t} + multiset(h[1..]) by {
        assert h == [t] + h[1..];
      }
      assert multiset(h[1..])[t] == 0;
    }
  }

  /** Adding the same query twice in a row is the same as adding it once. */
  lemma AddIdempotent(st: SearchHistoryState, q: string, q2: string)
    requires Trim(q2) == Trim(q)
    ensures Reduce(Reduce(st, AddSearch(q)), AddSearch(q2)) == Reduce(st, AddSearch(q))
  {
    var t := Trim(q);
    if t != "" {
      MoveToFrontIdempotent(st.history, t);
    }
  }

  /** Filtering distributes over concatenation, so the kept entries stay in their relative order. */
  lemma {:induction false} WithoutDistributes(a: seq<string>, b: seq<string>, x: string)
    ensures Without(a + b, x) == Without(a, x) + Without(b, x)
  {
    if |a| == 0 {
      assert a + b == b;
    } else {
      var head := if a[0] == x then [] else [a[0]];
      var ra, rb := Without(a[1..], x), Without(b, x);
      assert Without(a + b, x) == head + Without(a[1..] + b, x) by {
        assert (a + b)[0] == a[0] && (a + b)[1..] == a[1..] + b;
      }
      WithoutDistributes(a[1..], b, x);
      assert head + (ra + rb) == (head + ra) + rb;
    }
  }

  /**
   * Removing deletes every entry equal to the payload as given (not trimmed) and keeps
   * every other entry as many times as before; removing an absent entry changes nothing.
   */
  lemma RemoveDeletesEveryCopy(st: SearchHistoryState, x: string)
    ensures var h := Reduce(st, RemoveSearch(x)).history;
            && x !in h
            && (forall y :: y != x ==> multiset(h)[y] == multiset(st.history)[y])
            && (x !in st.history ==> h == st.history)
  {
    WithoutCounts(st.history, x);
  }

  /** Removal keeps the surviving entries in order: removing from a concatenation removes from each part. */
  lemma RemoveKeepsOrder(a: seq<string>, b: seq<string>, x: string)
    ensures Reduce(SearchHistoryState(a + b), RemoveSearch(x)).history
         == Reduce(SearchHistoryState(a), RemoveSearch(x)).history
          + Reduce(SearchHistoryState(b), RemoveSearch(x)).history
  {
    WithoutDistributes(a, b, x);
  }

  /** Clearing gives the empty list and loading gives the list exactly as passed, whatever was there. */
  lemma ClearAndLoad(st: SearchHistoryState, items: seq<string>)
    ensures Reduce(st, ClearHistory).history == []
    ensures Reduce(st, LoadHistory(items)).history == items
  {
  }

  /** Loading performs no deduplication and no truncation: eleven copies of one query load as they are. */
  lemma LoadIsUnchecked()
    ensures var items := seq(11, _ => "a");
            var h := Reduce(SearchHistoryState([]), LoadHistory(items)).history;
            |h| == 11 && !NoDuplicates(h)
  {
    var items := seq(11, _ => "a");
    assert items == ["a"] + items[1..];
    assert multiset(items)["a"] >= 2 by {
      assert items == ["a", "a"] + items[2..];
    }
  }

  /** Adding keeps the history at most ten entries long and free of duplicates. */
  lemma AddPreservesValid(st: SearchHistoryState, q: string)
    requires Valid(st)
    ensures Valid(Reduce(st, AddSearch(q)))
  {
    var t := Trim(q);
    if t != "" {
      MoveToFrontValid(st.history, t);
    }
  }

  /** Removing keeps the history at most ten entries long and free of duplicates. */
  lemma RemovePreservesValid(st: SearchHistoryState, x: string)
    requires Valid(st)
    ensures Valid(Reduce(st, RemoveSearch(x)))
  {
    var h := Reduce(st, RemoveSearch(x)).history;
    WithoutCounts(st.history, x);
    forall y | y in h
      ensures multiset(h)[y] <= 1
    {
      assert y in st.history;
    }
  }

  /** Every action but a load keeps the history at most ten entries long and free of duplicates. */
  lemma ReducePreservesValid(st: SearchHistoryState, action: SearchHistoryAction)
    requires Valid(st)
    requires !action.LoadHistory?
    ensures Valid(Reduce(st, action))
  {
    match action
    case AddSearch(q) => AddPreservesValid(st, q);
    case RemoveSearch(x) => RemovePreservesValid(st, x);
    case ClearHistory =>
  }
}

=== FILE: text.dfy ===
/**
 * The JavaScript string and number primitives the application leans on:
 * `String.prototype.trim`, `includes`, `startsWith`, `split`, `join`,
 * `Number.prototype.toString(radix)`, `parseInt`, and the UTF-16 `length`
 * that yup's `min`/`max` rules measure.
 */
module Text {

  /* ----- Whitespace and trim ----- */

  /** WhiteSpace and LineTerminator code points of ECMAScript: the set `trim` and `parseInt` skip. */
  predicate IsJsWhitespace(c: char) {
    var n := c as int;
    n == 0x09 || n == 0x0A || n == 0x0B || n == 0x0C || n == 0x0D || n == 0x20
    || n == 0xA0 || n == 0x1680 || (0x2000 <= n <= 0x200A) || n == 0x2028 || n == 0x2029
    || n == 0x202F || n == 0x205F || n == 0x3000 || n == 0xFEFF
  }

  /** `s` without its leading whitespace. */
  function TrimStart(s: string): (r: string)
    ensures |r| <= |s| && r == s[|s| - |r|..]
    ensures forall k :: 0 <= k < |s| - |r| ==> IsJsWhitespace(s[k])
    ensures r == [] || !IsJsWhitespace(r[0])
  {
    if |s| > 0 && IsJsWhitespace(s[0]) then TrimStart(s[1..]) else s
  }

  /** `s` without its trailing whitespace. */
  function TrimEnd(s: string): (r: string)
    ensures |r| <= |s| && r == s[..|r|]
    ensures forall k :: |r| <= k < |s| ==> IsJsWhitespace(s[k])
    ensures r == [] || !IsJsWhitespace(r[|r| - 1])
  {
    if |s| > 0 && IsJsWhitespace(s[|s| - 1]) then TrimEnd(s[..|s| - 1]) else s
  }

  /** `sub` occurs in `s` starting at index `i`. */
  predicate OccursAt(s: string, sub: string, i: int) {
    0 <= i <= |s| - |sub| && s[i..i + |sub|] == sub
  }

  /**
   * `r` is `s` with its whitespace removed at both ends: `r` occurs in `s` at `lead`,
   * everything around that occurrence is whitespace, and `r` itself neither starts
   * nor ends with whitespace.
   */
  predicate IsTrimOf(r: string, s: string, lead: int) {
    && OccursAt(s, r, lead)
    && (forall k :: 0 <= k < lead ==> IsJsWhitespace(s[k]))
    && (forall k :: lead + |r| <= k < |s| ==> IsJsWhitespace(s[k]))
    && (r == [] || (!IsJsWhitespace(r[0]) && !IsJsWhitespace(r[|r| - 1])))
  }

  /** `String.prototype.trim`: whitespace removed at both ends, the middle kept. */
  function Trim(s: string): (r: string)
    ensures exists lead :: IsTrimOf(r, s, lead)
  {
    var t := TrimStart(s);
    var r := TrimEnd(t);
    var lead := |s| - |t|;
    assert OccursAt(s, r, lead) by {
      assert r == s[lead..][..|r|];
    }
    assert forall k :: lead + |r| <= k < |s| ==> IsJsWhitespace(s[k]) by {
      forall k | lead + |r| <= k < |s|
        ensures IsJsWhitespace(s[k])
      {
        assert s[k] == t[k - lead];
      }
    }
    assert IsTrimOf(r, s, lead);
    r
  }

  /** A string with no whitespace at either end is its own trim. */
  lemma TrimOfTrimmed(s: string)
    requires s == [] || (!IsJsWhitespace(s[0]) && !IsJsWhitespace(s[|s| - 1]))
    ensures Trim(s) == s
  {
    assert TrimStart(s) == s;
  }

  /** Trimming twice is trimming once. */
  lemma TrimIdempotent(s: string)
    ensures Trim(Trim(s)) == Trim(s)
  {
    TrimOfTrimmed(Trim(s));
  }

  /* ----- Substrings, prefixes, join and split ----- */

  /** `s.startsWith(p)`. */
  predicate StartsWith(s: string, p: string) {
    |p| <= |s| && s[..|p|] == p
  }

  /** `s.includes(sub)`, by scanning every start position. */
  predicate Contains(s: string, sub: string)
    decreases |s|
  {
    StartsWith(s, sub) || (|s| > 0 && Contains(s[1..], sub))
  }

  /** `Contains` holds exactly when `sub` occurs at some position of `s`. */
  lemma {:induction false} ContainsIffOccurs(s: string, sub: string)
    ensures Contains(s, sub) <==> exists i :: OccursAt(s, sub, i)
    decreases |s|
  {
    if StartsWith(s, sub) {
      assert OccursAt(s, sub, 0);
    } else if |s| == 0 {
    } else {
      ContainsIffOccurs(s[1..], sub);
      if exists i :: OccursAt(s, sub, i) {
        var i :| OccursAt(s, sub, i);
        assert i != 0;
        assert s[1..][i - 1..i - 1 + |sub|] == sub;
        assert OccursAt(s[1..], sub, i - 1);
      }
      if Contains(s[1..], sub) {
        var j :| OccursAt(s[1..], sub, j);
        assert s[j + 1..j + 1 + |sub|] == sub;
        assert OccursAt(s, sub, j + 1);
      }
    }
  }

  /** Index of the first occurrence of `c` in `s`. */
  function IndexOf(s: string, c: char): (i: nat)
    requires c in s
    ensures i < |s| && s[i] == c && c !in s[..i]
  {
    if s[0] == c then 0 else 1 + IndexOf(s[1..], c)
  }

  /** `parts.join(sep)`. */
  function Join(parts: seq<string>, sep: string): string {
    if |parts| == 0 then ""
    else if |parts| == 1 then parts[0]
    else parts[0] + sep + Join(parts[1..], sep)
  }

  /** `s.split(c)` for a one-character separator: the pieces between occurrences of `c`. */
  function Split(s: string, c: char): (parts: seq<string>)
    ensures |parts| >= 1
    ensures forall k :: 0 <= k < |parts| ==> c !in parts[k]
    decreases |s|
  {
    if c !in s then [s]
    else
      var i := IndexOf(s, c);
      [s[..i]] + Split(s[i + 1..], c)
  }

  /** Splitting a join on a separator that no part contains gives the parts back. */
  lemma {:induction false} SplitJoin(parts: seq<string>, c: char)
    requires |parts| >= 1
    requires forall k :: 0 <= k < |parts| ==> c !in parts[k]
    ensures Split(Join(parts, [c]), c) == parts
  {
    if |parts| == 1 {
    } else {
      var rest := Join(parts[1..], [c]);
      var s := parts[0] + [c] + rest;
      assert c in s by { assert s[|parts[0]|] == c; }
      var i := IndexOf(s, c);
      assert i == |parts[0]| by {
        assert s[..|parts[0]|] == parts[0];
      }
      assert s[..i] == parts[0];
      assert s[i + 1..] == rest;
      SplitJoin(parts[1..], c);
    }
  }

  /* ----- Digits, Number.prototype.toString(radix) and parseInt ----- */

  /** The value of `c` as a digit in any radix up to 36, or 36 when `c` is no digit. */
  function DigitValue(c: char): (d: nat)
    ensures d <= 36
  {
    if '0' <= c <= '9' then c as int - '0' as int
    else if 'a' <= c <= 'z' then c as int - 'a' as int + 10
    else if 'A' <= c <= 'Z' then c as int - 'A' as int + 10
    else 36
  }

  predicate IsDigitOf(c: char, radix: nat) {
    DigitValue(c) < radix
  }

  predicate AllDigitsOf(s: string, radix: nat) {
    forall k :: 0 <= k < |s| ==> IsDigitOf(s[k], radix)
  }

  /** The lower-case character that `toString(radix)` writes for digit `d`. */
  function DigitChar(d: nat): (c: char)
    requires d < 36
    ensures DigitValue(c) == d
    ensures '0' <= c <= '9' || 'a' <= c <= 'f' || d >= 16
  {
    if d < 10 then ('0' as int + d) as char else ('a' as int + d - 10) as char
  }

  lemma DivBounds(n: nat, r: nat)
    requires 2 <= r <= n
    ensures 1 <= n / r < n
  {
  }

  /** `n.toString(radix)` for a non-negative integer `n`: most significant digit first, no padding. */
  function ToRadixString(n: nat, radix: nat): (s: string)
    requires 2 <= radix <= 36
    ensures |s| >= 1 && AllDigitsOf(s, radix)
    ensures n > 0 ==> s[0] != '0'
  {
    if n < radix then [DigitChar(n)]
    else
      DivBounds(n, radix);
      ToRadixString(n / radix, radix) + [DigitChar(n % radix)]
  }

  /** The number a string of digits denotes in `radix`. */
  function DigitsValue(s: string, radix: nat): nat
    requires AllDigitsOf(s, radix)
  {
    if |s| == 0 then 0
    else DigitsValue(s[..|s| - 1], radix) * radix + DigitValue(s[|s| - 1])
  }

  lemma DivMod(n: nat, r: nat)
    requires r > 0
    ensures (n / r) * r + n % r == n
  {
  }

  /** Appending a digit multiplies the value by the radix and adds the digit. */
  lemma DigitsValueSnoc(p: string, c: char, radix: nat)
    requires AllDigitsOf(p, radix) && IsDigitOf(c, radix)
    ensures AllDigitsOf(p + [c], radix)
    ensures DigitsValue(p + [c], radix) == DigitsValue(p, radix) * radix + DigitValue(c)
  {
    assert (p + [c])[..|p|] == p;
  }

  /** One step of the round trip: the last digit written is `n % radix`, the rest is `n / radix`. */
  lemma RadixStep(n: nat, radix: nat)
    requires 2 <= radix <= 36 && n >= radix
    requires DigitsValue(ToRadixString(n / radix, radix), radix) == n / radix
    ensures DigitsValue(ToRadixString(n, radix), radix) == n
  {
    var q, d := n / radix, n % radix;
    var prefix := ToRadixString(q, radix);
    assert ToRadixString(n, radix) == prefix + [DigitChar(d)];
    DigitsValueSnoc(prefix, DigitChar(d), radix);
    DivMod(n, radix);
  }

  /** A number below the radix is written as its single digit. */
  lemma RadixSingle(n: nat, radix: nat)
    requires 2 <= radix <= 36 && n < radix
    ensures DigitsValue(ToRadixString(n, radix), radix) == n
  {
    var s := ToRadixString(n, radix);
    assert s == [DigitChar(n)];
    assert s[..0] == [];
  }

  /** Reading back the digits `toString(radix)` wrote gives the number. */
  lemma {:induction false} RadixRoundTrip(n: nat, radix: nat)
    requires 2 <= radix <= 36
    ensures DigitsValue(ToRadixString(n, radix), radix) == n
    decreases n
  {
    if n < radix {
      RadixSingle(n, radix);
    } else {
      DivBounds(n, radix);
      RadixRoundTrip(n / radix, radix);
      RadixStep(n, radix);
    }
  }

  /** The longest prefix of `s` made of digits of `radix`. */
  function LeadingDigits(s: string, radix: nat): (ds: string)
    ensures |ds| <= |s| && ds == s[..|ds|]
    ensures AllDigitsOf(ds, radix)
    ensures |ds| < |s| ==> !IsDigitOf(s[|ds|], radix)
  {
    if |s| > 0 && IsDigitOf(s[0], radix) then [s[0]] + LeadingDigits(s[1..], radix) else []
  }

  /** The result of `parseInt`: a number, or NaN; Absent stands for a value that was never parsed. */
  datatype ParsedInt = Absent | Num(n: int) | NaN {
    /** JavaScript truthiness of the value: `undefined`, `0` and `NaN` are falsy. */
    predicate Truthy() {
      Num? && n != 0
    }

    /** Unary minus: NaN stays NaN. */
    function Negate(): ParsedInt {
      if Num? then Num(-n) else this
    }
  }

  /** The longest run of `radix` digits at the start of `body`, read as a number; NaN when it is empty. */
  function DigitRun(body: string, radix: nat): (r: ParsedInt)
    ensures r.Num? ==> r.n >= 0
  {
    var ds := LeadingDigits(body, radix);
    if |ds| == 0 then NaN else Num(DigitsValue(ds, radix))
  }

  /** An unsigned numeral: a `0x`/`0X` prefix selects radix 16, anything else radix 10. */
  function ParseUnsigned(u: string): ParsedInt {
    if |u| >= 2 && u[0] == '0' && (u[1] == 'x' || u[1] == 'X') then DigitRun(u[2..], 16)
    else DigitRun(u, 10)
  }

  /** What follows the leading whitespace and at most one sign. */
  function UnsignedPart(s: string): string {
    var t := TrimStart(s);
    if |t| > 0 && (t[0] == '-' || t[0] == '+') then t[1..] else t
  }

  /**
   * `parseInt(s)` with no radix argument: leading whitespace skipped, an optional sign,
   * then an unsigned numeral; NaN when no digit follows.
   */
  function ParseInt(s: string): (r: ParsedInt)
    ensures r != Absent
  {
    var t := TrimStart(s);
    var n := ParseUnsigned(UnsignedPart(s));
    if |t| > 0 && t[0] == '-' then n.Negate() else n
  }

  /** `n.toString()` for an integer-valued Number (below 10^21, where JavaScript switches to exponent form). */
  function IntToString(n: int): (s: string)
    ensures |s| >= 1
  {
    if n < 0 then "-" + ToRadixString(-n, 10) else ToRadixString(n, 10)
  }

  /** A run of digits is its own longest digit prefix. */
  lemma LeadingDigitsOfDigits(s: string, radix: nat)
    requires AllDigitsOf(s, radix)
    ensures LeadingDigits(s, radix) == s
  {
  }

  /** A plain run of decimal digits is read as its value. */
  lemma ParseUnsignedOfDecimal(digits: string)
    requires |digits| >= 1 && AllDigitsOf(digits, 10)
    ensures ParseUnsigned(digits) == Num(DigitsValue(digits, 10))
    ensures IsDigitOf(digits[0], 10)
  {
    if |digits| >= 2 {
      assert IsDigitOf(digits[1], 10);
    }
    LeadingDigitsOfDigits(digits, 10);
  }

  /** Text that starts with something other than whitespace is left alone by `TrimStart`. */
  lemma TrimStartOfNonSpace(s: string)
    requires |s| > 0 && !IsJsWhitespace(s[0])
    ensures TrimStart(s) == s
  {
  }

  /** A `+` in front of the numeral leaves its reading as it is. */
  lemma ParseIntOfPlus(u: string)
    ensures ParseInt("+" + u) == ParseUnsigned(u)
  {
    var s := "+" + u;
    assert s[1..] == u;
    TrimStartOfNonSpace(s);
  }

  /** A `-` in front of the numeral negates its reading. */
  lemma ParseIntOfMinus(u: string)
    ensures ParseInt("-" + u) == ParseUnsigned(u).Negate()
  {
    var s := "-" + u;
    assert s[1..] == u;
    TrimStartOfNonSpace(s);
  }

  /** A numeral that starts with a digit reads the same bare or after `+`, and negated after `-`. */
  lemma ParseIntOfNumeral(u: string, v: nat)
    requires |u| > 0 && IsDigitOf(u[0], 10)
    requires ParseUnsigned(u) == Num(v)
    ensures ParseInt(u) == Num(v)
    ensures ParseInt("+" + u) == Num(v)
    ensures ParseInt("-" + u) == Num(v).Negate()
  {
    ParseIntOfBareNumeral(u, v);
    ParseIntOfPlusNumeral(u, v);
    ParseIntOfMinusNumeral(u, v);
  }

  lemma ParseIntOfBareNumeral(u: string, v: nat)
    requires |u| > 0 && IsDigitOf(u[0], 10)
    requires ParseUnsigned(u) == Num(v)
    ensures ParseInt(u) == Num(v)
  {
    TrimStartOfNonSpace(u);
  }

  lemma ParseIntOfPlusNumeral(u: string, v: nat)
    requires ParseUnsigned(u) == Num(v)
    ensures ParseInt("+" + u) == Num(v)
  {
    ParseIntOfPlus(u);
  }

  lemma ParseIntOfMinusNumeral(u: string, v: nat)
    requires ParseUnsigned(u) == Num(v)
    ensures ParseInt("-" + u) == Num(v).Negate()
  {
    ParseIntOfMinus(u);
  }

  /** `parseInt` reads a plain run of decimal digits as its value. */
  lemma ParseIntOfDecimal(digits: string)
    requires |digits| >= 1 && AllDigitsOf(digits, 10)
    ensures ParseInt(digits) == Num(DigitsValue(digits, 10))
  {
    ParseUnsignedOfDecimal(digits);
    ParseIntOfBareNumeral(digits, DigitsValue(digits, 10));
  }

  /** `parseInt` reads a minus sign followed by decimal digits as the negated value. */
  lemma ParseIntOfNegativeDecimal(digits: string)
    requires |digits| >= 1 && AllDigitsOf(digits, 10)
    ensures ParseInt("-" + digits) == Num(DigitsValue(digits, 10)).Negate()
  {
    var v := DigitsValue(digits, 10);
    assert ParseUnsigned(digits) == Num(v) by {
      ParseUnsignedOfDecimal(digits);
    }
    ParseIntOfMinusNumeral(digits, v);
  }

  /** `parseInt(String(n)) === n` for every integer `n`. */
  lemma ParseIntOfIntToString(n: int)
    ensures ParseInt(IntToString(n)) == Num(n)
  {
    var m: nat := if n < 0 then -n else n;
    RadixRoundTrip(m, 10);
    if n < 0 {
      ParseIntOfNegativeDecimal(ToRadixString(m, 10));
    } else {
      ParseIntOfDecimal(ToRadixString(m, 10));
    }
  }

  /** Leading whitespace is dropped by `TrimStart` whatever follows it. */
  lemma {:induction false} TrimStartSkips(ws: string, s: string)
    requires forall k :: 0 <= k < |ws| ==> IsJsWhitespace(ws[k])
    ensures TrimStart(ws + s) == TrimStart(s)
  {
    if |ws| == 0 {
      assert ws + s == s;
    } else {
      var w := ws + s;
      assert w[0] == ws[0] && IsJsWhitespace(w[0]);
      assert TrimStart(w) == TrimStart(w[1..]);
      assert w[1..] == ws[1..] + s;
      TrimStartSkips(ws[1..], s);
    }
  }

  /** Whitespace before the numeral never changes what `parseInt` reads. */
  lemma ParseIntSkipsWhitespace(ws: string, s: string)
    requires forall k :: 0 <= k < |ws| ==> IsJsWhitespace(ws[k])
    ensures ParseInt(ws + s) == ParseInt(s)
  {
    TrimStartSkips(ws, s);
  }

  /** A digit run followed by a character that is no digit is exactly the longest digit prefix. */
  lemma {:induction false} LeadingDigitsStops(ds: string, rest: string, radix: nat)
    requires AllDigitsOf(ds, radix)
    requires |rest| > 0 ==> !IsDigitOf(rest[0], radix)
    ensures LeadingDigits(ds + rest, radix) == ds
  {
    if |ds| > 0 {
      assert (ds + rest)[0] == ds[0];
      assert (ds + rest)[1..] == ds[1..] + rest;
      LeadingDigitsStops(ds[1..], rest, radix);
    } else {
      assert ds + rest == rest;
    }
  }

  /** Decimal digits, not the lone `0` of a `0x` prefix, followed by a non-digit are read as their value. */
  lemma ParseUnsignedOfDigitsThenRest(ds: string, rest: string)
    requires |ds| >= 1 && AllDigitsOf(ds, 10)
    requires |rest| > 0 ==> !IsDigitOf(rest[0], 10)
    requires !(ds == "0" && |rest| > 0 && (rest[0] == 'x' || rest[0] == 'X'))
    ensures ParseUnsigned(ds + rest) == Num(DigitsValue(ds, 10))
    ensures IsDigitOf((ds + rest)[0], 10)
  {
    var u := ds + rest;
    assert u[0] == ds[0];
    assert !(|u| >= 2 && u[0] == '0' && (u[1] == 'x' || u[1] == 'X')) by {
      if |ds| >= 2 {
        assert u[1] == ds[1] && IsDigitOf(ds[1], 10);
      } else if |u| >= 2 && u[0] == '0' {
        assert ds == "0";
        assert u[1] == rest[0];
      }
    }
    LeadingDigitsStops(ds, rest, 10);
  }

  /**
   * Decimal digits followed by text that does not continue them are read as the digits'
   * value, the trailing text ignored. A lone `0` followed by `x` is excluded: that is the
   * hexadecimal prefix.
   */
  lemma ParseIntOfDigitsThenRest(ds: string, rest: string)
    requires |ds| >= 1 && AllDigitsOf(ds, 10)
    requires |rest| > 0 ==> !IsDigitOf(rest[0], 10)
    requires !(ds == "0" && |rest| > 0 && (rest[0] == 'x' || rest[0] == 'X'))
    ensures ParseInt(ds + rest) == Num(DigitsValue(ds, 10))
  {
    var u, v := ds + rest, DigitsValue(ds, 10);
    assert ParseUnsigned(u) == Num(v) && IsDigitOf(u[0], 10) by {
      ParseUnsignedOfDigitsThenRest(ds, rest);
    }
    ParseIntOfBareNumeral(u, v);
  }

  /** The same digits after a sign: `+` keeps their value and `-` negates it. */
  lemma ParseIntOfSignedDigitsThenRest(ds: string, rest: string)
    requires |ds| >= 1 && AllDigitsOf(ds, 10)
    requires |rest| > 0 ==> !IsDigitOf(rest[0], 10)
    requires !(ds == "0" && |rest| > 0 && (rest[0] == 'x' || rest[0] == 'X'))
    ensures ParseInt("+" + (ds + rest)) == Num(DigitsValue(ds, 10))
    ensures ParseInt("-" + (ds + rest)) == Num(DigitsValue(ds, 10)).Negate()
  {
    var u, v := ds + rest, DigitsValue(ds, 10);
    assert ParseUnsigned(u) == Num(v) by {
      ParseUnsignedOfDigitsThenRest(ds, rest);
    }
    ParseIntOfPlusNumeral(u, v);
    ParseIntOfMinusNumeral(u, v);
  }

  /** `0x` or `0X` then hexadecimal digits is read in radix 16, the trailing text ignored. */
  lemma ParseIntOfHex(prefix: string, ds: string, rest: string)
    requires prefix == "0x" || prefix == "0X"
    requires |ds| >= 1 && AllDigitsOf(ds, 16)
    requires |rest| > 0 ==> !IsDigitOf(rest[0], 16)
    ensures ParseInt(prefix + (ds + rest)) == Num(DigitsValue(ds, 16))
  {
    ParseUnsignedOfHex(prefix, ds, rest);
    ParseIntOfBareNumeral(prefix + (ds + rest), DigitsValue(ds, 16));
  }

  /** After a `0x` prefix the hexadecimal digits are read in radix 16 up to the first non-digit. */
  lemma ParseUnsignedOfHex(prefix: string, ds: string, rest: string)
    requires prefix == "0x" || prefix == "0X"
    requires |ds| >= 1 && AllDigitsOf(ds, 16)
    requires |rest| > 0 ==> !IsDigitOf(rest[0], 16)
    ensures ParseUnsigned(prefix + (ds + rest)) == Num(DigitsValue(ds, 16))
    ensures IsDigitOf((prefix + (ds + rest))[0], 10)
  {
    var u := prefix + (ds + rest);
    assert u[0] == '0' && (u[1] == 'x' || u[1] == 'X') && u[2..] == ds + rest;
    LeadingDigitsStops(ds, rest, 16);
  }

  /**
   * `u` begins with a numeral: after a `0x`/`0X` prefix a hexadecimal digit, and
   * otherwise a decimal digit.
   */
  predicate NumeralAhead(u: string) {
    if |u| >= 2 && u[0] == '0' && (u[1] == 'x' || u[1] == 'X') then |u| >= 3 && IsDigitOf(u[2], 16)
    else |u| >= 1 && IsDigitOf(u[0], 10)
  }

  /** An unsigned numeral is NaN exactly when no digit begins it. */
  lemma ParseUnsignedNaNIff(u: string)
    ensures ParseUnsigned(u) == NaN <==> !NumeralAhead(u)
  {
    if |u| >= 2 && u[0] == '0' && (u[1] == 'x' || u[1] == 'X') {
      var body := u[2..];
      assert |body| >= 1 ==> body[0] == u[2];
      assert DigitRun(body, 16) == NaN <==> !(|body| >= 1 && IsDigitOf(body[0], 16));
    } else {
      assert DigitRun(u, 10) == NaN <==> !(|u| >= 1 && IsDigitOf(u[0], 10));
    }
  }

  /**
   * `parseInt` gives NaN exactly when no digit follows the leading whitespace, the optional
   * sign and the optional `0x`; otherwise it gives a number.
   */
  lemma ParseIntNaNIff(s: string)
    ensures ParseInt(s) == NaN <==> !NumeralAhead(UnsignedPart(s))
    ensures ParseInt(s).Num? <==> NumeralAhead(UnsignedPart(s))
  {
    ParseUnsignedNaNIff(UnsignedPart(s));
  }

  /* ----- UTF-16 length ----- */

  /** JavaScript's `length`: code points above U+FFFF take two UTF-16 code units. */
  function Utf16Length(s: string): (n: nat)
    ensures |s| <= n <= 2 * |s|
  {
    if |s| == 0 then 0
    else (if s[0] as int > 0xFFFF then 2 else 1) + Utf16Length(s[1..])
  }
}

=== FILE: url_params.dfy ===
/**
 * `URLSearchParams` reduced to its list structure: a query or fragment string is a
 * `&`-separated list of `name=value` pairs. Percent-encoding and the `+`-for-space
 * rule of application/x-www-form-urlencoded are not part of this model: names and
 * values are taken to be already decoded.
 */
module UrlParams {
  import opened Wrappers
  import opened Text

  datatype Pair = Pair(name: string, value: string)

  /** One non-empty segment: the name up to the first `=`, the value after it (empty when there is no `=`). */
  function SplitPair(seg: string): (p: Pair)
    ensures '=' in seg ==> seg == p.name + "=" + p.value && '=' !in p.name
    ensures '=' !in seg ==> p == Pair(seg, "")
    ensures '=' !in p.name
    ensures '&' !in seg ==> '&' !in p.name && '&' !in p.value
  {
    if '=' in seg then
      var i := IndexOf(seg, '=');
      assert seg == seg[..i] + "=" + seg[i + 1..];
      Pair(seg[..i], seg[i + 1..])
    else Pair(seg, "")
  }

  /** The pairs of a list of segments, empty segments skipped. */
  function PairsOf(segs: seq<string>): (ps: seq<Pair>)
    ensures |ps| <= |segs|
    ensures forall i :: 0 <= i < |ps| ==> '=' !in ps[i].name
    ensures (forall k :: 0 <= k < |segs| ==> '&' !in segs[k]) ==>
              forall i :: 0 <= i < |ps| ==> '&' !in ps[i].name && '&' !in ps[i].value
  {
    if |segs| == 0 then []
    else (if segs[0] == "" then [] else [SplitPair(segs[0])]) + PairsOf(segs[1..])
  }

  /** `new URLSearchParams(input)`: a leading `?` is dropped, then the text is split on `&`. */
  function Parse(input: string): (ps: seq<Pair>)
    ensures forall i :: 0 <= i < |ps| ==> '=' !in ps[i].name && '&' !in ps[i].name && '&' !in ps[i].value
  {
    var body := if |input| > 0 && input[0] == '?' then input[1..] else input;
    PairsOf(Split(body, '&'))
  }

  /** `params.get(name)`: the value of the first pair with that name, None (`null`) if there is none. */
  function Get(ps: seq<Pair>, name: string): (r: Option<string>)
    ensures r.None? <==> forall i :: 0 <= i < |ps| ==> ps[i].name != name
    ensures r.Some? ==> exists i :: 0 <= i < |ps| && ps[i] == Pair(name, r.value)
                                    && forall j :: 0 <= j < i ==> ps[j].name != name
  {
    if |ps| == 0 then None
    else if ps[0].name == name then Some(ps[0].value)
    else
      var r := Get(ps[1..], name);
      assert r.Some? ==> exists i :: 0 <= i < |ps| && ps[i] == Pair(name, r.value)
                                     && forall j :: 0 <= j < i ==> ps[j].name != name by {
        if r.Some? {
          var i :| 0 <= i < |ps[1..]| && ps[1..][i] == Pair(name, r.value)
                   && forall j :: 0 <= j < i ==> ps[1..][j].name != name;
          assert ps[i + 1] == Pair(name, r.value);
          assert forall j :: 0 <= j < i + 1 ==> ps[j].name != name by {
            forall j | 0 <= j < i + 1 ensures ps[j].name != name {
              if j > 0 { assert ps[j] == ps[1..][j - 1]; }
            }
          }
        }
      }
      r
  }

  /** `get` finds the first pair with the name: a pair no earlier pair shares its name with is the one read. */
  lemma GetFirstOccurrence(ps: seq<Pair>, i: nat)
    requires i < |ps|
    requires forall j :: 0 <= j < i ==> ps[j].name != ps[i].name
    ensures Get(ps, ps[i].name) == Some(ps[i].value)
  {
    var r := Get(ps, ps[i].name);
    var k :| 0 <= k < |ps| && ps[k] == Pair(ps[i].name, r.value)
             && forall j :: 0 <= j < k ==> ps[j].name != ps[i].name;
    assert !(k < i) && !(i < k);
  }

  /** The `name=value` text of each pair. */
  function Segments(ps: seq<Pair>): (segs: seq<string>)
    ensures |segs| == |ps|
    ensures forall i :: 0 <= i < |ps| ==> segs[i] == ps[i].name + "=" + ps[i].value
  {
    if |ps| == 0 then [] else [ps[0].name + "=" + ps[0].value] + Segments(ps[1..])
  }

  /** `params.toString()` without percent-encoding: the segments joined by `&`. */
  function Serialize(ps: seq<Pair>): (s: string)
    ensures |ps| == 0 ==> s == ""
    ensures |ps| >= 1 ==> StartsWith(s, ps[0].name + "=" + ps[0].value)
  {
    Join(Segments(ps), "&")
  }

  /** A pair that survives serialisation unescaped: no `&` anywhere, no `=` or `?` in the name. */
  predicate Serializable(p: Pair) {
    '&' !in p.name && '&' !in p.value && '=' !in p.name && '?' !in p.name
  }

  lemma SplitPairOfSegment(p: Pair)
    requires '=' !in p.name
    ensures SplitPair(p.name + "=" + p.value) == p
  {
    var seg := p.name + "=" + p.value;
    assert seg[|p.name|] == '=';
    var i := IndexOf(seg, '=');
    assert seg[..|p.name|] == p.name;
    assert i == |p.name|;
    assert seg[i + 1..] == p.value;
  }

  lemma {:induction false} PairsOfSegments(ps: seq<Pair>)
    requires forall i :: 0 <= i < |ps| ==> Serializable(ps[i])
    ensures PairsOf(Segments(ps)) == ps
  {
    if |ps| > 0 {
      var segs := Segments(ps);
      assert segs[0] != "" by { assert |segs[0]| > |ps[0].name|; }
      SplitPairOfSegment(ps[0]);
      assert segs[1..] == Segments(ps[1..]);
      PairsOfSegments(ps[1..]);
    }
  }

  /** Parsing what `Serialize` wrote gives back the same pairs in the same order. */
  lemma ParseSerialize(ps: seq<Pair>)
    requires forall i :: 0 <= i < |ps| ==> Serializable(ps[i])
    ensures Parse(Serialize(ps)) == ps
  {
    var segs := Segments(ps);
    if |ps| == 0 {
      assert Serialize(ps) == "";
      assert Split("", '&') == [""];
    } else {
      forall k | 0 <= k < |segs|
        ensures '&' !in segs[k]
      {
        assert segs[k] == ps[k].name + "=" + ps[k].value;
      }
      assert "&" == ['&'];
      SplitJoin(segs, '&');
      var s := Serialize(ps);
      JoinStartsWithFirst(segs, "&");
      assert s[0] == segs[0][0];
      assert segs[0][0] != '?' by {
        if |ps[0].name| > 0 {
          assert segs[0][0] == ps[0].name[0];
        }
      }
      PairsOfSegments(ps);
    }
  }

  lemma JoinStartsWithFirst(parts: seq<string>, sep: string)
    requires |parts| >= 1
    ensures StartsWith(Join(parts, sep), parts[0])
  {
  }
}

=== FILE: video_actions.dfy ===
/**
 * The upload server action: it checks that a file was given, then that no text field
 * is empty, builds the upload metadata from the parameters unchanged, and hands both to
 * the YouTube upload, whose answer it returns. Every failure becomes an `Error` carrying
 * the original message, or a fixed message when what was thrown was not an `Error`.
 */
module VideoActions {
  import opened Wrappers
  import opened VideoUploadSchema

  const VideoRequiredMessage: string := "Video file is required"
  const FieldsRequiredMessage: string := "All fields are required"
  const UploadFailedMessage: string := "Failed to upload video. Please try again."

  datatype UploadVideoParams = UploadVideoParams(
    video: Option<VideoFile>,
    title: string,
    description: string,
    categoryId: string,
    privacyStatus: string)

  datatype Snippet = Snippet(title: string, description: string, categoryId: string)
  datatype Status = Status(privacyStatus: string)
  /** `YouTubeVideoUploadRequest`. */
  datatype UploadMetadata = UploadMetadata(snippet: Snippet, status: Status)

  /** The one upload request the action made. */
  datatype UploadCall = UploadCall(video: VideoFile, metadata: UploadMetadata)

  /**
   * What the action did: its result (the upload's response, or the message of the error it
   * throws) and the upload call it made, if any.
   */
  datatype ActionOutcome<R> = ActionOutcome(result: Result<R, string>, call: Option<UploadCall>)

  /** The message of the rethrown error. */
  function ErrorMessage(thrown: Thrown): string {
    match thrown
    case ErrorInstance(m) => m
    case OtherValue => UploadFailedMessage
  }

  /** The metadata built from the parameters. */
  function MetadataOf(params: UploadVideoParams): UploadMetadata {
    UploadMetadata(Snippet(params.title, params.description, params.categoryId), Status(params.privacyStatus))
  }

  /** `uploadVideoAction`; `upload` is the YouTube service's upload, which may throw. */
  function UploadVideoAction<R>(params: UploadVideoParams,
                                upload: (VideoFile, UploadMetadata) -> Result<R, Thrown>): (r: ActionOutcome<R>)
    ensures r.call.Some? <==> params.video.Some? && FieldsPresent(params)
    ensures r.call.Some? ==> r.call.value == UploadCall(params.video.value, MetadataOf(params))
    ensures params.video.None? ==> r.result == Failure(VideoRequiredMessage)
    ensures params.video.Some? && !FieldsPresent(params) ==> r.result == Failure(FieldsRequiredMessage)
  {
    if params.video.None? then ActionOutcome(Failure(VideoRequiredMessage), None)
    else if params.title == "" || params.description == "" || params.categoryId == "" || params.privacyStatus == "" then
      ActionOutcome(Failure(FieldsRequiredMessage), None)
    else
      var metadata := MetadataOf(params);
      var call := UploadCall(params.video.value, metadata);
      match upload(params.video.value, metadata)
      case Success(response) => ActionOutcome(Success(response), Some(call))
      case Failure(thrown) => ActionOutcome(Failure(ErrorMessage(thrown)), Some(call))
  }

  /** All four text fields are non-empty. */
  predicate FieldsPresent(params: UploadVideoParams) {
    params.title != "" && params.description != "" && params.categoryId != "" && params.privacyStatus != ""
  }

  /* ----- Properties ----- */

  /** Without a file the action fails with the file message and never uploads, whatever the other fields hold. */
  lemma MissingVideoFirst<R>(params: UploadVideoParams, upload: (VideoFile, UploadMetadata) -> Result<R, Thrown>)
    requires params.video.None?
    ensures UploadVideoAction(params, upload) == ActionOutcome(Failure(VideoRequiredMessage), None)
  {
  }

  /** With a file but an empty text field the action fails with the fields message and never uploads. */
  lemma MissingFieldNoUpload<R>(params: UploadVideoParams, upload: (VideoFile, UploadMetadata) -> Result<R, Thrown>)
    requires params.video.Some? && !FieldsPresent(params)
    ensures UploadVideoAction(params, upload) == ActionOutcome(Failure(FieldsRequiredMessage), None)
  {
  }

  /**
   * The upload is called exactly when a file is given and no field is empty, and then exactly
   * once, with that file and the parameters copied unchanged into snippet and status.
   */
  lemma UploadIffComplete<R>(params: UploadVideoParams, upload: (VideoFile, UploadMetadata) -> Result<R, Thrown>)
    ensures var out := UploadVideoAction(params, upload);
            && (out.call.Some? <==> params.video.Some? && FieldsPresent(params))
            && (out.call.Some? ==>
                  && out.call.value.video == params.video.value
                  && out.call.value.metadata.snippet.title == params.title
                  && out.call.value.metadata.snippet.description == params.description
                  && out.call.value.metadata.snippet.categoryId == params.categoryId
                  && out.call.value.metadata.status.privacyStatus == params.privacyStatus)
  {
  }

  /**
   * Once the upload is called its response is returned unchanged, an `Error` it throws keeps
   * its message, and anything else thrown becomes the fixed failure message.
   */
  lemma UploadResultPassesThrough<R>(params: UploadVideoParams, upload: (VideoFile, UploadMetadata) -> Result<R, Thrown>)
    requires params.video.Some? && FieldsPresent(params)
    ensures var out := UploadVideoAction(params, upload);
            var answer := upload(params.video.value, MetadataOf(params));
            && (answer.Success? ==> out.result == Success(answer.value))
            && (answer.Failure? && answer.error.ErrorInstance? ==> out.result == Failure(answer.error.message))
            && (answer.Failure? && answer.error.OtherValue? ==> out.result == Failure(UploadFailedMessage))
  {
  }

  /** The parameters the upload form submits once its schema accepts it. */
  function ParamsOfForm(form: UploadForm): UploadVideoParams {
    UploadVideoParams(form.video, form.title.GetOr(""), form.description.GetOr(""),
                      form.categoryId.GetOr(""), form.privacyStatus.GetOr(""))
  }

  /** The schema is stricter than the action: a form the schema accepts always reaches the upload. */
  lemma ValidFormReachesUpload<R>(form: UploadForm, upload: (VideoFile, UploadMetadata) -> Result<R, Thrown>)
    requires Valid(form)
    ensures UploadVideoAction(ParamsOfForm(form), upload).call.Some?
  {
  }
}

=== FILE: video_upload_schema.dfy ===
/**
 * The upload form's validation schema, one rule set per field, each checked on its own:
 * title and description are required with a maximum length, the category is only
 * required, the privacy status must be one of three values, and the file must be
 * present, at most 100 MiB, and of a video type.
 */
module VideoUploadSchema {
  import opened Wrappers
  import opened Text

  /** `PrivacyStatus`. */
  const PrivacyPublic: string := "public"
  const PrivacyUnlisted: string := "unlisted"
  const PrivacyPrivate: string := "private"

  const MaxTitleLength: nat := 100
  const MaxDescriptionLength: nat := 5000
  /** 100 MiB. */
  const MaxVideoSize: nat := 100 * 1024 * 1024

  /** The parts of a browser `File` the schema reads. */
  datatype VideoFile = VideoFile(name: string, size: int, mimeType: string)

  /** The form values; None is a value that is not set. */
  datatype UploadForm = UploadForm(
    title: Option<string>,
    description: Option<string>,
    categoryId: Option<string>,
    privacyStatus: Option<string>,
    video: Option<VideoFile>)

  datatype FormField = Title | Description | CategoryId | PrivacyStatus | Video

  /** A string rule that is `required`: set and non-empty. */
  predicate Present(v: Option<string>) {
    v.Some? && v.value != ""
  }

  /** `required`, `min(1)` and `max(100)`, lengths in UTF-16 code units. */
  predicate TitleOk(v: Option<string>) {
    Present(v) && Utf16Length(v.value) >= 1 && Utf16Length(v.value) <= MaxTitleLength
  }

  /** `required` and `max(5000)`. */
  predicate DescriptionOk(v: Option<string>) {
    Present(v) && Utf16Length(v.value) <= MaxDescriptionLength
  }

  /** `required` only: any non-empty category id passes. */
  predicate CategoryOk(v: Option<string>) {
    Present(v)
  }

  /** `oneOf([public, private, unlisted])` and `required`. */
  predicate PrivacyOk(v: Option<string>) {
    Present(v) && (v.value == PrivacyPublic || v.value == PrivacyPrivate || v.value == PrivacyUnlisted)
  }

  /** The `fileSize` test: a missing file fails. */
  predicate SizeOk(v: Option<VideoFile>) {
    v.Some? && v.value.size <= MaxVideoSize
  }

  /** The `fileType` test: a missing file fails. */
  predicate TypeOk(v: Option<VideoFile>) {
    v.Some? && (StartsWith(v.value.mimeType, "video/") || v.value.mimeType == "application/octet-stream")
  }

  /** `required` plus the two tests. */
  predicate VideoOk(v: Option<VideoFile>) {
    v.Some? && SizeOk(v) && TypeOk(v)
  }

  /** Whether the rules of one field hold; each reads only its own field. */
  predicate FieldOk(form: UploadForm, f: FormField) {
    match f
    case Title => TitleOk(form.title)
    case Description => DescriptionOk(form.description)
    case CategoryId => CategoryOk(form.categoryId)
    case PrivacyStatus => PrivacyOk(form.privacyStatus)
    case Video => VideoOk(form.video)
  }

  /** The fields whose rules fail. */
  function FailedFields(form: UploadForm): (r: set<FormField>)
    ensures forall f :: f in r <==> !FieldOk(form, f)
  {
    set f: FormField | f in {Title, Description, CategoryId, PrivacyStatus, Video} && !FieldOk(form, f)
  }

  /** The schema accepts the form. */
  predicate Valid(form: UploadForm) {
    TitleOk(form.title) && DescriptionOk(form.description) && CategoryOk(form.categoryId)
    && PrivacyOk(form.privacyStatus) && VideoOk(form.video)
  }

  /* ----- Properties ----- */

  /** The form is valid exactly when no field fails. */
  lemma ValidIffNoFailures(form: UploadForm)
    ensures Valid(form) <==> FailedFields(form) == {}
  {
    if !Valid(form) {
      if !TitleOk(form.title) { assert Title in FailedFields(form); }
      else if !DescriptionOk(form.description) { assert Description in FailedFields(form); }
      else if !CategoryOk(form.categoryId) { assert CategoryId in FailedFields(form); }
      else if !PrivacyOk(form.privacyStatus) { assert PrivacyStatus in FailedFields(form); }
      else { assert Video in FailedFields(form); }
    }
  }

  /** The two forms hold the same value in field `f`. */
  predicate SameField(a: UploadForm, b: UploadForm, f: FormField) {
    match f
    case Title => a.title == b.title
    case Description => a.description == b.description
    case CategoryId => a.categoryId == b.categoryId
    case PrivacyStatus => a.privacyStatus == b.privacyStatus
    case Video => a.video == b.video
  }

  /**
   * Fields are checked independently: whether a field fails depends on that field's value
   * alone, so two forms that differ only in field `f` fail on the same other fields.
   */
  lemma FieldsIndependent(a: UploadForm, b: UploadForm, f: FormField)
    requires forall g :: g != f ==> SameField(a, b, g)
    ensures SameField(a, b, f) ==> FailedFields(a) == FailedFields(b)
    ensures FailedFields(a) - {f} == FailedFields(b) - {f}
  {
    forall g | g != f ensures (g in FailedFields(a)) <==> (g in FailedFields(b)) {
      assert SameField(a, b, g);
    }
  }

  /** On text without surrogate pairs, the UTF-16 length is the character count. */
  lemma {:induction false} Utf16LengthOfBmp(s: string)
    requires forall k :: 0 <= k < |s| ==> s[k] as int <= 0xFFFF
    ensures Utf16Length(s) == |s|
  {
    if |s| > 0 {
      Utf16LengthOfBmp(s[1..]);
    }
  }

  /** Title boundary: a title of 100 basic characters is accepted, one of 101 is rejected, an empty one too. */
  lemma TitleBoundary(t: string)
    requires forall k :: 0 <= k < |t| ==> t[k] as int <= 0xFFFF
    ensures TitleOk(Some(t)) <==> 1 <= |t| <= MaxTitleLength
    ensures !TitleOk(None)
  {
    Utf16LengthOfBmp(t);
  }

  /** Description boundary: up to 5000 basic characters are accepted; an empty description is rejected. */
  lemma DescriptionBoundary(d: string)
    requires forall k :: 0 <= k < |d| ==> d[k] as int <= 0xFFFF
    ensures DescriptionOk(Some(d)) <==> 1 <= |d| <= MaxDescriptionLength
  {
    Utf16LengthOfBmp(d);
  }

  /** The category is not checked against the category list: any non-empty value passes. */
  lemma CategoryOnlyRequired(c: string)
    ensures CategoryOk(Some(c)) <==> c != ""
  {
  }

  /** Exactly the three privacy values pass. */
  lemma PrivacyValues(p: string)
    ensures PrivacyOk(Some(p)) <==> p in {PrivacyPublic, PrivacyUnlisted, PrivacyPrivate}
  {
  }

  /** Size boundary: exactly 104,857,600 bytes is accepted, one byte more is rejected. */
  lemma SizeBoundary(f: VideoFile)
    ensures f.size == 104857600 ==> SizeOk(Some(f))
    ensures f.size == 104857601 ==> !SizeOk(Some(f))
    ensures SizeOk(Some(f)) <==> f.size <= 104857600
  {
  }

  /** A missing file fails every file rule. */
  lemma MissingVideoFails()
    ensures !SizeOk(None) && !TypeOk(None) && !VideoOk(None)
  {
  }

  /** Any `video/...` type and the generic binary type pass; a type that is neither fails. */
  lemma VideoTypes(f: VideoFile, subtype: string)
    ensures TypeOk(Some(f.(mimeType := "video/" + subtype)))
    ensures TypeOk(Some(f.(mimeType := "application/octet-stream")))
    ensures !StartsWith(f.mimeType, "video/") && f.mimeType != "application/octet-stream" ==> !TypeOk(Some(f))
  {
    assert ("video/" + subtype)[..|"video/"|] == "video/";
  }
}

=== FILE: web_storage.dfy ===
/**
 * A browser key/value store (`sessionStorage`, `localStorage`) or a request's cookie
 * values, as a plain map from key to string value.
 */
module WebStorage {
  import opened Wrappers

  type Store = map<string, string>

  /** `getItem(key)`: the stored string, or None where JavaScript gives `null`. */
  function GetItem(st: Store, key: string): (r: Option<string>)
    ensures r.Some? <==> key in st
    ensures r.Some? ==> r.value == st[key]
  {
    if key in st then Some(st[key]) else None
  }

  /** JavaScript truthiness of a looked-up string: present and not the empty string. */
  predicate IsTruthy(v: Option<string>) {
    v.Some? && v.value != ""
  }
}

=== FILE: wrappers.dfy ===
/** Optional values and results shared by every module of the model. */
module Wrappers {

  /** A JavaScript value that may be `null`/`undefined` (None) or present (Some). */
  datatype Option<+T> = None | Some(value: T) {
    function GetOr(default: T): T {
      match this
      case Some(v) => v
      case None => default
    }
  }

  /** The outcome of a call that may throw: Success carries the value, Failure what was thrown. */
  datatype Result<+R, +E> = Success(value: R) | Failure(error: E)

  /** What a JavaScript `throw` carries: an `Error` instance with its message, or any other value. */
  datatype Thrown = ErrorInstance(message: string) | OtherValue
}
